=== FILE: README.md ===
# Battle simulator and Sudoku solver: a Dafny model

This project models three pieces of the `sample-code` repository and proves properties of them.

- **The countdown event queue of the battle simulator** (`EventQueue`, `event_queue.dfy`).
  - It is a fixed-capacity array of `(time, event)` records kept sorted by remaining time, with an `INT_MAX`/`NullEvent` sentinel just past the last entry.
  - The array is an immutable sequence of slots. `Added`, `CountedDown` and `Popped` are its reference semantics.
  - The methods `Add`, `CountDown` and `Pop` run the source's shifting loops and are proved to compute them.
  - `QueueShape` (`queue_shape.dfy`) counts the kinds of record a queue holds. It shows that a player's queue never outgrows its capacity.
- **The per-trial battle engine** (`BattleRules`, `BattleEngine`, `BattleInvariants`).
  - The battle starts with two queues, two HP values, two energies, a battle timer and a deferral counter. It is seeded, stepped event by event until the timer or one side's HP runs out, and repeated over the Monte Carlo trials.
  - Every per-battle constant (damage, the rounded per-hit energy credit, move energies, times, maxima) is an integer parameter.
  - `rand()` is an oracle `draw: nat -> int` read at a cursor that runs on across trials.
  - A failing `assert` of the simulator is an `Abort` outcome. The model adds two aborts of its own: `TimeOutOfRange` for a count-down that would leave the `int` range and `OutOfSteps` for an exhausted step budget. `BattleInvariants` proves that a sane configuration trips none of the simulator's asserts and never reaches `TimeOutOfRange`; only `OutOfSteps`, an exhausted budget, remains possible.
- **The Sudoku validator and backtracking solver** (`Sudoku`, `SudokuSolver`).
  - A board is a 9 x 9 grid of one-character cells. `KeyError` from `set.remove` is `None`.
  - The order in which Python iterates a set is an oracle `pick(b, s)` that lists the members of `s` in some order, which may depend on the board `b` the set was built from. Every property about the solver holds for all such orders.

Two rules of the simulator that are easy to misread:

- On a "lands" event the energy credit goes to the side that takes the damage (`BattleSimulator/BattleSimulator.cpp:754`, `:835`).
- A battle in which both sides reach 0 HP counts as an attacker win, because only the defender's HP is tested (`BattleSimulator/BattleSimulator.cpp:945`).

## Model

| member | source | states |
|---|---|---|
| EventQueue.Initialize | BattleSimulator/EventQueue.cpp:21-33 | the queue is valid and empty with capacity `2n+1` and the sentinel in slot 0; the old slots are kept when the capacity is unchanged and fresh ones allocated when it differs |
| EventQueue.Timer | BattleSimulator/EventQueue.cpp:36-40 | defined only when the front is not the sentinel, which means the queue is non-empty; returns the front time, no greater than any entry's time |
| EventQueue.SplitPointSorted | BattleSimulator/EventQueue.cpp:52-57 | in a sorted queue the shift loop stops exactly between the entries with time at most `t` and those with greater time |
| EventQueue.InsertSorted | BattleSimulator/EventQueue.cpp:50-59 | the ordered insert yields one more record, the old multiset plus the new record |
| EventQueue.InsertSortedSorted | BattleSimulator/EventQueue.cpp:43-61 | inserting into a sorted queue keeps it sorted |
| EventQueue.InsertPlacesAfterTies | BattleSimulator/EventQueue.cpp:52 | the new record lands after every entry of equal or smaller time and before every greater one; the old entries keep their order on both sides |
| EventQueue.EqualTimesPopInInsertionOrder | BattleSimulator/EventQueue.cpp:52-59 | two records added with the same time end up side by side in insertion order, after all older records of that time |
| EventQueue.Added | BattleSimulator/EventQueue.cpp:43-61 | adding keeps the queue valid, raises the count by exactly one, keeps the capacity and inserts the record in order |
| EventQueue.Add | BattleSimulator/EventQueue.cpp:43-61 | the shift-and-write loop computes `Added`; it needs `numEntries + 1 < maxEntries` because it writes the slot past the sentinel |
| EventQueue.CountedDown | BattleSimulator/EventQueue.cpp:64-71 | every real entry's time drops by `k` with its event kept; count, capacity, the sentinel and the slots beyond are unchanged |
| EventQueue.CountDown | BattleSimulator/EventQueue.cpp:64-71 | the loop over the first `numEntries` slots computes `CountedDown` |
| EventQueue.Popped | BattleSimulator/EventQueue.cpp:74-89 | popping a due front returns its event and leaves the old tail, in order, with count one less |
| EventQueue.Pop | BattleSimulator/EventQueue.cpp:74-89 | the forward shift loop computes `Popped` |
| EventQueue.InsertAll | BattleSimulator/EventQueue.cpp:43-61 | a run of adds yields the old records plus exactly the added ones |
| EventQueue.InsertAllInOrder | BattleSimulator/EventQueue.cpp:52-59 | records added in time order after those present are appended as they are: no insert shifts anything |
| QueueShape.InsertSortedCount | BattleSimulator/EventQueue.cpp:50-59 | an insert adds exactly the inserted record to every count of record kinds |
| QueueShape.InsertPairBalanced | BattleSimulator/BattleSimulator.cpp:792-793 | adding a "lands" record with a later-firing finish keeps every suffix holding no more "lands" records than other records |
| QueueShape.BalancedBound | BattleSimulator/EventQueue.cpp:49 | a balanced queue holds at most twice its non-"lands" records, which bounds its fill level |
| BattleRules.Min | BattleSimulator/BattleSimulator.cpp:59-62 | the result is one of the two arguments and no greater than either |
| BattleRules.Max | BattleSimulator/BattleSimulator.cpp:65-68 | the result is one of the two arguments and no less than either |
| BattleRules.TruncDiv | BattleSimulator/BattleSimulator.cpp:75-76 | C's `/` by a positive divisor: the quotient truncated toward zero, bracketing the dividend from below for a non-negative one and from above for a negative one |
| BattleRules.Jitter | BattleSimulator/BattleSimulator.cpp:76 | the scaled draw lies in `[0, randomness]` for a non-negative randomness and in `[randomness + 1, 0]` for a negative one |
| BattleRules.RandomInterval | BattleSimulator/BattleSimulator.cpp:71-77 | for `r >= 0` the interval lies in `[e - r/2, e - r/2 + r]`; for `r < 0` it lies in `[s + r + 1, s]` with `s = e - r/2`, both halvings truncated toward zero |
| BattleRules.SkipWeakerSpecialAttacks | BattleSimulator/BattleSimulator.cpp:693-697 | when switched on for a weaker special attack, its cost becomes exactly `-(maxEnergy + 1)`, beyond the attacker's energy ceiling, and every other field is unchanged; otherwise the configuration is unchanged |
| BattleRules.Defer | BattleSimulator/BattleSimulator.cpp:875-900 | with randomness the count is untouched; without it using the special attack resets the count to 0 and deferring it raises the count by one |
| BattleRules.DeferralCadence | BattleSimulator/BattleSimulator.cpp:886-900 | without randomness and `D` deferrals, the defender attacks on exactly every `(D+1)`-th affordable opportunity |
| BattleEngine.Enqueue | BattleSimulator/EventQueue.cpp:43-61 | an add succeeds exactly when the time is below `INT_MAX` and a slot is free past the sentinel, and then inserts in order |
| BattleEngine.Credited | BattleSimulator/BattleSimulator.cpp:754 | credited energy is capped at the maximum, equals the sum or the cap, and does not drop for a non-negative credit |
| BattleEngine.AttackerEffect | BattleSimulator/BattleSimulator.cpp:747-782 | attacker "lands" events damage the defender and credit the defender's energy; the initial finishes abort; everything else changes nothing |
| BattleEngine.DefenderEffect | BattleSimulator/BattleSimulator.cpp:828-861 | defender "lands" events damage the attacker and credit the attacker's energy; a long-press finish aborts; everything else changes nothing |
| BattleEngine.RunBattle | BattleSimulator/BattleSimulator.cpp:734-941 | a completed battle has stopped running: the timer or one side's HP is used up |
| BattleEngine.EnqueueAll | BattleSimulator/EventQueue.cpp:43-61 | a successful run of adds keeps the queue valid, raises the count by the number of records and holds exactly their ordered inserts |
| BattleEngine.SeedAttacker | BattleSimulator/BattleSimulator.cpp:704-709 | the attacker's queue holds exactly its one opening event: a transform start if it transforms, else an attack start, at the offensive initial interval |
| BattleEngine.DefenderSeedsInOrder | BattleSimulator/BattleSimulator.cpp:710-724 | with non-negative second and third intervals the defender's opening events need no reordering |
| BattleEngine.SeedDefender | BattleSimulator/BattleSimulator.cpp:710-724 | the defender's queue holds the ordered inserts of its three opening events at `t1`, `t1 + t2` and `t1 + t2 + third`, which are those events in that order when the intervals are non-negative; the oracle position advances by one exactly when randomness is on |
| BattleEngine.StartBattle | BattleSimulator/BattleSimulator.cpp:703-732 | a seeded battle starts from the full timer and HP, zero energies and zero deferral count, with both queues holding their opening events and the oracle advanced by one draw exactly when randomness is on |
| BattleEngine.RunTrials | BattleSimulator/BattleSimulator.cpp:699-951 | the win count never exceeds the number of trials; `BattleInvariants.RunTrialsCountsWins` states exactly which trials it counts |
| BattleEngine.TrialEnds | BattleSimulator/BattleSimulator.cpp:701-951 | lists one finished battle per trial, each trial starting from the queues and oracle position the previous one left |
| BattleEngine.Wins | BattleSimulator/BattleSimulator.cpp:945-947 | counts the battles won by the attacker, at most one per battle |
| BattleEngine.Simulate | BattleSimulator/BattleSimulator.cpp:537-543 | for any positive trial count, several trials without randomness give `-1` whatever the draws; otherwise the result lies in `[0, 1]` |
| BattleEngine.WinFraction | BattleSimulator/BattleSimulator.cpp:961 | the fraction lies in `[0, 1]`, is 1 exactly when every trial is won and 0 exactly when none is |
| BattleInvariants.TickOk | BattleSimulator/BattleSimulator.cpp:736-740 | under `Inv` both fronts are readable, the step is non-negative, no entry passes `INT_MAX`, and `Inv` survives the count-down |
| BattleInvariants.TickDue | BattleSimulator/BattleSimulator.cpp:737-743 | after the count-down at least one side's front is due |
| BattleInvariants.AttackerLandsOnlyHit | BattleSimulator/BattleSimulator.cpp:751-767 | an attacker "lands" event only damages and credits the defender: nothing is queued and the attacker is untouched |
| BattleInvariants.DefenderLandsOnlyHit | BattleSimulator/BattleSimulator.cpp:832-848 | a defender "lands" event only damages and credits the attacker: nothing is queued and the defender is untouched |
| BattleInvariants.AttackerStartsAttackOk | BattleSimulator/BattleSimulator.cpp:796-812 | starting the attacker's next attack never faults and leaves exactly one pending action, energy in range and any long press affordable |
| BattleInvariants.AttackerNextOk | BattleSimulator/BattleSimulator.cpp:785-820 | every finish, including the transform's, starts a new attacker action without fault; the defender is untouched |
| BattleInvariants.AttackerTurnOk | BattleSimulator/BattleSimulator.cpp:743-821 | the attacker's turn never faults and keeps `Inv` |
| BattleInvariants.DefenderChoosesAffordable | BattleSimulator/BattleSimulator.cpp:875-900 | the defender picks its special attack only when it can afford it |
| BattleInvariants.DefenderStartsAttackOk | BattleSimulator/BattleSimulator.cpp:872-922 | the defender's attack start never faults and keeps its queue shape and energy range |
| BattleInvariants.DefenderFollowUps | BattleSimulator/BattleSimulator.cpp:923-938 | a steady-state finish queues exactly one start an idle interval later; an initial finish or transform finish queues nothing |
| BattleInvariants.DefenderNextOk | BattleSimulator/BattleSimulator.cpp:864-939 | the defender's next action never faults and keeps its queue shape and energy range |
| BattleInvariants.DefenderTurnOk | BattleSimulator/BattleSimulator.cpp:824-940 | the defender's turn never faults and keeps `Inv` |
| BattleInvariants.StepOk | BattleSimulator/BattleSimulator.cpp:734-941 | one pass of the battle loop from `Inv` never faults and keeps `Inv` |
| BattleInvariants.AttackerSeedOk | BattleSimulator/BattleSimulator.cpp:704-709 | the attacker's queue seeds without fault into a shape satisfying its invariant |
| BattleInvariants.DefenderSeedOk | BattleSimulator/BattleSimulator.cpp:710-724 | the defender's three opening events seed without fault into a shape satisfying its invariant |
| BattleInvariants.StartBattleOk | BattleSimulator/BattleSimulator.cpp:703-732 | seeding a trial of a sane configuration never faults, establishes `Inv`, and leaves the defender's three opening events in the order they are added |
| BattleInvariants.RunBattleOk | BattleSimulator/BattleSimulator.cpp:734-941 | a battle run from `Inv` can only stop early by exhausting the step budget, never on an assert |
| BattleInvariants.RunTrialsOk | BattleSimulator/BattleSimulator.cpp:699-951 | every trial of a sane configuration runs without tripping an assert |
| BattleInvariants.RunTrialsCountsWins | BattleSimulator/BattleSimulator.cpp:701-951 | the trial loop aborts exactly when one of its trials does, and otherwise counts exactly the trials whose battle ended with the defender's HP at most 0 |
| BattleInvariants.WinsExtremes | BattleSimulator/BattleSimulator.cpp:945-947 | the count is full exactly when every battle left the defender at most 0 HP, and zero exactly when none did |
| BattleInvariants.SimulateCountsWins | BattleSimulator/BattleSimulator.cpp:699-961 | without the configuration error, the answer is the number of trials the attacker won divided by the number of trials |
| BattleInvariants.OneTrialWin | BattleSimulator/BattleSimulator.cpp:945-950 | a trial counts as a win exactly when the defender's HP is at most 0, whatever the attacker's HP |
| BattleInvariants.SimulateOk | BattleSimulator/BattleSimulator.cpp:699-961 | the whole simulation of a sane configuration never trips an assert |
| BattleInvariants.SkipWeakerSane | BattleSimulator/BattleSimulator.cpp:694-697 | the skip-weaker adjustment keeps a sane configuration sane |
| BattleInvariants.SkipWeakerNoLongPress | BattleSimulator/BattleSimulator.cpp:801-803 | with weaker special attacks skipped, no reachable state lets the attacker afford one, so it never queues a long press |
| Sudoku.RemoveAllSpec | sudoku-solver/sudoku-solver.py:41-45 | the removals succeed exactly when the non-blank values are distinct members of the set, and then remove exactly those values |
| Sudoku.FindRowNums | sudoku-solver/sudoku-solver.py:40-45 | it raises exactly when the row repeats a value or holds a non-digit; otherwise it returns the digits the row lacks |
| Sudoku.FindColNums | sudoku-solver/sudoku-solver.py:48-53 | it raises exactly when the column repeats a value or holds a non-digit; otherwise it returns the digits the column lacks |
| Sudoku.FindBlockNums | sudoku-solver/sudoku-solver.py:57-65 | it raises exactly when the block with corner `(r - r%3, c - c%3)` repeats a value or holds a non-digit; otherwise it returns the digits that block lacks |
| Sudoku.FindBlockNumsInspectsBlock | sudoku-solver/sudoku-solver.py:59-64 | every cell of one block gets the same answer, built from exactly the nine cells of that block |
| Sudoku.Corner | sudoku-solver/sudoku-solver.py:59-60 | the corner is a multiple of 3 at most `x` and within 2 of it |
| Sudoku.CheckBoard | sudoku-solver/sudoku-solver.py:69-93 | returns `True` exactly when every row, column and block is legal; otherwise it names the first failing unit in the source's scan order |
| Sudoku.NextCell | sudoku-solver/sudoku-solver.py:31-37 | the successor is the next row-major position; `(8, 8)` goes to row 9 |
| SudokuSolver.Place | sudoku-solver/sudoku-solver.py:125 | writing a cell changes that cell and no other |
| SudokuSolver.PlaceFills | sudoku-solver/sudoku-solver.py:124-126 | filling a blank with a digit removes exactly one blank, the recursion's measure |
| SudokuSolver.Scan | sudoku-solver/sudoku-solver.py:112-117 | the scan stops at row 9 or at a blank cell at or after its start |
| SudokuSolver.ScanSkipsFilled | sudoku-solver/sudoku-solver.py:114-117 | every cell the scan passes is filled |
| SudokuSolver.FirstBlank | sudoku-solver/sudoku-solver.py:112-117 | the scan reaches row 9 exactly when the board has no blank |
| SudokuSolver.Candidates | sudoku-solver/sudoku-solver.py:119-122 | it raises exactly when the cell's row, column or block is illegal; otherwise the candidates are exactly the digits missing from all three |
| SudokuSolver.PickedFit | sudoku-solver/sudoku-solver.py:124 | every value the loop tries fits the cell |
| SudokuSolver.Solve | sudoku-solver/sudoku-solver.py:111-129 | the solver changes only blank cells; on `False` the board is exactly restored; on `True` it has no blanks |
| SudokuSolver.TryEach | sudoku-solver/sudoku-solver.py:124-129 | the candidate loop changes only blank cells and resets the cell to blank on failure |
| SudokuSolver.PlaceValid | sudoku-solver/sudoku-solver.py:119-125 | writing a fitting digit into a blank keeps a valid board valid |
| SudokuSolver.SolveValid | sudoku-solver/sudoku-solver.py:111-129 | from a valid board the solver never raises, and a solution it returns is valid |
| SudokuSolver.SolveComplete | sudoku-solver/sudoku-solver.py:111-129 | if the board has a completion, the solver finds one whatever the set iteration order |
| SudokuSolver.SolveSpec | sudoku-solver/sudoku-solver.py:109-129 | from a valid board the solver returns `True` exactly when a completion exists, and then the board is one: no blanks, valid, original values kept |

## Left out

- Logging, the Excel and VBA callbacks, add-in registration and window enumeration are left out: they are file I/O, host glue and foreign calls.
- Stat and damage derivation is left out: the type-effectiveness lookups, the CP multipliers, DPS, the rounding of energy per damage and the defender HP multiplier are floating point over spreadsheet data. Their integer results are parameters of `Config`.
- `srand` and the generator behind `rand()` are left out. A draw is the oracle value at the cursor, within `[0, RAND_MAX]`, and `RAND_MAX` is fixed at `0x7fff`.
- The deferral probability test `rand() / (RAND_MAX + 1) > p` is modelled as `draw > deferLimit`. `deferLimit` is an integer parameter standing for `floor(p * (RAND_MAX + 1))`, because the double comparison reduces to that.
- `BattleEngine.RunBattle`: carries a step budget (`fuel`). The source loop has none and ends, because every move deals at least 1 damage (`BattleSimulator/BattleSimulator.cpp:649-666`, the transform's damage of 1 at `:598`). The model's `Move.damage` is any integer, so the model does not prove termination. An `OutOfSteps` abort marks only an exhausted budget, and `BattleInvariants.RunBattleOk` proves it is the only abort.
- `BattleInvariants.RunBattleOk`: states that the run never trips an assert. It does not restate `Inv` at the end of the run; `StepOk` states that per pass.
- `BattleInvariants.Sane`: the no-fault theorem assumes a sane configuration. That means non-negative times and gains, special costs that are not positive, moves that deal at least 1 damage due no later than their end, a non-negative interval randomness when randomness is on, at least three opening intervals, and times that stay below `INT_MAX`. Other configurations may abort, as the simulator's asserts would.
- Uninitialized slots of a freshly allocated queue are modelled as a given `fill` record.
- `BattleEngine.Fault`: `TimeOutOfRange` is an abort of the model alone. The simulator counts its queues down without a check (`BattleSimulator/EventQueue.cpp:64-71`), so a time leaving the `int` range is signed overflow there; `BattleInvariants.TickOk` proves a sane configuration never reaches it.
- `BattleEngine.Enqueue`: aborts with `QueueOverflow` also when `numEntries + 1 == maxEntries`. The simulator's assert (`BattleSimulator/EventQueue.cpp:49`) lets that case through and then shifts the sentinel one slot past the array's end.
- `BattleEngine.Drawable`: a trial needs at least three opening intervals. The simulator writes the third entry of an array sized by that count (`BattleSimulator/BattleSimulator.cpp:680-683`), which is out of bounds below three; the model does not model that write.
- `BattleEngine.WinFraction`: is the exact quotient `wins / numTrials` as a real. The simulator divides as a `double` (`BattleSimulator/BattleSimulator.cpp:961`), which rounds; its bounds and its values at 0 and 1 are the same.
- HP, energy and the battle timer are unbounded integers. Their 32-bit overflow is not modelled, because it needs HP or timer values near `INT_MAX`.
- The `MsgBox` warning on the configuration error is left out; only the `-1` result is modelled.
- `print_board`, `main`, the module-level sample board and the printed messages of `check_board` are left out as console output. `CheckBoard` returns which unit failed instead.
- Sudoku cells are single characters and boards exactly 9 x 9. A Python cell could hold any string, but a multi-character or empty string behaves like a non-digit value and raises the same way.
- The order in which `solve_sudoku` tries candidates follows Python's set iteration order, which is unspecified. It is the parameter `pick`, a function of the board and the set; which solution the solver returns depends on it, and is not stated.

=== FILE: battle_engine.dfy ===
/** The per-trial battle engine: two countdown queues on a shared clock,
    the attacker's and the defender's reaction to each event, the step that
    advances the clock to the next event, the battle loop and the Monte
    Carlo trial loop with its win count.

    An `assert` of the simulator that fails aborts it; here that is a
    `Fault`. Calls of `rand()` read the oracle `draw` at the position
    `cursor`, which runs on across trials as the generator's state does.
 */
module BattleEngine {
  import opened EventQueue
  import opened BattleRules

  /** Why a run aborts. Three faults are the simulator's own failing
      asserts: a timer read from an empty queue, an insert with no room
      (here also the insert whose shifted sentinel would land past the end
      of the array, which the simulator writes without checking), and an
      event a side cannot receive. Two are the model's alone:
      `TimeOutOfRange` stops a count-down whose times would leave the
      `int` range, where the simulator subtracts unchecked, and
      `OutOfSteps` marks a battle that has not ended within the step
      budget given to the model. */
  datatype Fault =
    | TimerOnEmptyQueue
    | QueueOverflow
    | TimeOutOfRange
    | UnreachableEvent
    | OutOfSteps

  datatype Outcome<+T> = Ok(value: T) | Abort(fault: Fault) {
    predicate IsFailure() {
      Abort?
    }

    function PropagateFailure<U>(): Outcome<U>
      requires Abort?
    {
      Abort(fault)
    }

    function Extract(): T
      requires Ok?
    {
      value
    }
  }

  /** The state of one battle. */
  datatype Battle = Battle(
    attackerQueue: Queue,
    defenderQueue: Queue,
    battleTimer: int,
    attackerHP: int,
    defenderHP: int,
    attackerEnergy: int,
    defenderEnergy: int,
    opportunities: int,
    cursor: nat)

  predicate QueuesValid(b: Battle) {
    Valid(b.attackerQueue) && Valid(b.defenderQueue)
  }

  /** The loop condition of a battle. */
  predicate Running(b: Battle) {
    b.battleTimer > 0 && b.attackerHP > 0 && b.defenderHP > 0
  }

  /** The attacker is credited with a win when the defender's HP is used up,
      whatever the attacker's own HP. */
  predicate AttackerWins(b: Battle) {
    b.defenderHP <= 0
  }

  /** What a trial needs of the configuration and of `rand()`: draws in
      range, and room for the three opening intervals the simulator writes
      into its array of them. */
  ghost predicate Drawable(cfg: Config, draw: nat -> int) {
    cfg.numDefensiveInitialIntervals >= 3 && IsOracle(draw)
  }

  /** `Add`, failing where the simulator's array insert would: at a time
      that is not below the sentinel's, or with no slot left for the
      shifted sentinel. */
  function Enqueue(q: Queue, time: int, e: Event): (r: Outcome<Queue>)
    requires Valid(q)
    ensures r.Ok? <==> time < IntMax && q.numEntries + 1 < q.maxEntries
    ensures r.Ok? ==> Valid(r.value) && r.value.maxEntries == q.maxEntries
    ensures r.Ok? ==> Entries(r.value) == InsertSorted(Entries(q), EventRecord(time, e))
  {
    if time < IntMax && q.numEntries + 1 < q.maxEntries then Ok(Added(q, time, e)) else Abort(QueueOverflow)
  }

  /** Energy after a credit: the sum, capped at `maxEnergy`. */
  function Credited(energy: int, credit: int, maxEnergy: int): (e: int)
    ensures e <= maxEnergy && e <= energy + credit
    ensures e == energy + credit || e == maxEnergy
    ensures energy <= maxEnergy && credit >= 0 ==> energy <= e
  {
    Min(energy + credit, maxEnergy)
  }

  /** The attacker's move `m` lands: the defender loses `m.damage` HP and is
      credited `m.credit` energy. */
  function HitDefender(cfg: Config, b: Battle, m: Move): Battle {
    b.(defenderHP := b.defenderHP - m.damage,
       defenderEnergy := Credited(b.defenderEnergy, m.credit, cfg.defender.maxEnergy))
  }

  /** The defender's move `m` lands: the attacker loses `m.damage` HP and is
      credited `m.credit` energy. */
  function HitAttacker(cfg: Config, b: Battle, m: Move): Battle {
    b.(attackerHP := b.attackerHP - m.damage,
       attackerEnergy := Credited(b.attackerEnergy, m.credit, cfg.attacker.maxEnergy))
  }

  /** The attacker's first reaction to a fired event: damage for "lands"
      events, an abort for events its queue can never hold. */
  function AttackerEffect(cfg: Config, b: Battle, e: Event): (r: Outcome<Battle>)
    ensures e.PlayerLandsFastAttack? ==> r == Ok(HitDefender(cfg, b, cfg.attacker.fast))
    ensures e.PlayerLandsSpecialAttack? ==> r == Ok(HitDefender(cfg, b, cfg.attacker.special))
    ensures e.PlayerLandsTransform? ==> r == Ok(HitDefender(cfg, b, cfg.transform))
    ensures r.Abort? <==> e.PlayerFinishesInitialFastAttack? || e.PlayerFinishesInitialSpecialAttack?
    ensures r.Ok? ==> r.value.attackerQueue == b.attackerQueue && r.value.defenderQueue == b.defenderQueue
    ensures r.Ok? && !e.PlayerLandsFastAttack? && !e.PlayerLandsSpecialAttack? && !e.PlayerLandsTransform? ==> r.value == b
  {
    match e
    case PlayerLandsFastAttack => Ok(HitDefender(cfg, b, cfg.attacker.fast))
    case PlayerLandsSpecialAttack => Ok(HitDefender(cfg, b, cfg.attacker.special))
    case PlayerLandsTransform => Ok(HitDefender(cfg, b, cfg.transform))
    case PlayerFinishesInitialFastAttack => Abort(UnreachableEvent)
    case PlayerFinishesInitialSpecialAttack => Abort(UnreachableEvent)
    case _ => Ok(b)
  }

  /** The attacker's next action after a fired event: a transform, a long
      press towards a special attack when it can afford one, the special
      attack itself once the long press finishes, or a fast attack. */
  function AttackerNext(cfg: Config, b: Battle, e: Event): (r: Outcome<Battle>)
    requires Valid(b.attackerQueue)
    ensures r.Ok? ==> Valid(r.value.attackerQueue) && r.value.defenderQueue == b.defenderQueue
  {
    var q := b.attackerQueue;
    match e
    case PlayerStartsInitialAttack => Abort(UnreachableEvent)
    case PlayerStartsTransform =>
      var q1 :- Enqueue(q, cfg.transform.damageStart, PlayerLandsTransform);
      var q2 :- Enqueue(q1, cfg.transform.duration, PlayerFinishesTransform);
      Ok(b.(attackerQueue := q2,
            attackerEnergy := Credited(b.attackerEnergy, cfg.transform.energy, cfg.attacker.maxEnergy)))
    case PlayerStartsAttack => AttackerStartsAttack(cfg, b)
    case PlayerFinishesFastAttack => AttackerStartsAttack(cfg, b)
    case PlayerFinishesSpecialAttack => AttackerStartsAttack(cfg, b)
    case PlayerFinishesTransform => AttackerStartsAttack(cfg, b)
    case PlayerFinishesLongPress =>
      var q1 :- Enqueue(q, cfg.attacker.special.damageStart, PlayerLandsSpecialAttack);
      var q2 :- Enqueue(q1, cfg.attacker.special.duration, PlayerFinishesSpecialAttack);
      Ok(b.(attackerQueue := q2, attackerEnergy := b.attackerEnergy + cfg.attacker.special.energy))
    case _ => Ok(b)
  }

  /** The attacker always commits to its special attack when it can afford
      it, starting with a long press; otherwise it starts a fast attack and
      gains its energy at once. */
  function AttackerStartsAttack(cfg: Config, b: Battle): (r: Outcome<Battle>)
    requires Valid(b.attackerQueue)
    ensures r.Ok? ==> Valid(r.value.attackerQueue) && r.value.defenderQueue == b.defenderQueue
  {
    var q := b.attackerQueue;
    if CanAfford(b.attackerEnergy, cfg.attacker.special.energy) then
      var q1 :- Enqueue(q, cfg.longPressDuration, PlayerFinishesLongPress);
      Ok(b.(attackerQueue := q1))
    else
      var q1 :- Enqueue(q, cfg.attacker.fast.damageStart, PlayerLandsFastAttack);
      var q2 :- Enqueue(q1, cfg.attacker.fast.duration, PlayerFinishesFastAttack);
      Ok(b.(attackerQueue := q2,
            attackerEnergy := Credited(b.attackerEnergy, cfg.attacker.fast.energy, cfg.attacker.maxEnergy)))
  }

  /** Both of the attacker's reactions to the event it popped. */
  function AttackerActs(cfg: Config, b: Battle, e: Event): (r: Outcome<Battle>)
    requires Valid(b.attackerQueue)
    ensures r.Ok? ==> Valid(r.value.attackerQueue) && r.value.defenderQueue == b.defenderQueue
  {
    var b1 :- AttackerEffect(cfg, b, e);
    AttackerNext(cfg, b1, e)
  }

  /** The defender's first reaction to a fired event. */
  function DefenderEffect(cfg: Config, b: Battle, e: Event): (r: Outcome<Battle>)
    ensures e.PlayerLandsFastAttack? ==> r == Ok(HitAttacker(cfg, b, cfg.defender.fast))
    ensures e.PlayerLandsSpecialAttack? ==> r == Ok(HitAttacker(cfg, b, cfg.defender.special))
    ensures e.PlayerLandsTransform? ==> r == Ok(HitAttacker(cfg, b, cfg.transform))
    ensures r.Abort? <==> e.PlayerFinishesLongPress?
    ensures r.Ok? ==> r.value.attackerQueue == b.attackerQueue && r.value.defenderQueue == b.defenderQueue
    ensures r.Ok? && !e.PlayerLandsFastAttack? && !e.PlayerLandsSpecialAttack? && !e.PlayerLandsTransform? ==> r.value == b
  {
    match e
    case PlayerFinishesLongPress => Abort(UnreachableEvent)
    case PlayerLandsFastAttack => Ok(HitAttacker(cfg, b, cfg.defender.fast))
    case PlayerLandsSpecialAttack => Ok(HitAttacker(cfg, b, cfg.defender.special))
    case PlayerLandsTransform => Ok(HitAttacker(cfg, b, cfg.transform))
    case _ => Ok(b)
  }

  /** The defender's decision at the start of an attack: whether it uses its
      special attack, its new opportunity count and the oracle position
      after any draw. */
  function DefenderChooses(cfg: Config, draw: nat -> int, b: Battle): (bool, int, nat) {
    if !CanAfford(b.defenderEnergy, cfg.defender.special.energy) then
      (false, b.opportunities, b.cursor)
    else
      var d := Defer(cfg.randomness, cfg.numDefensiveSpecialAttackDeferrals, cfg.deferLimit,
                     b.opportunities, draw(b.cursor));
      (d.0, d.1, if cfg.randomness then b.cursor + 1 else b.cursor)
  }

  /** The defender starts a special or a fast attack. An attack started
      from one of the opening events finishes with the "initial" variant of
      its finishing event. */
  function DefenderStartsAttack(cfg: Config, draw: nat -> int, b: Battle, initial: bool): (r: Outcome<Battle>)
    requires Valid(b.defenderQueue)
    ensures r.Ok? ==> Valid(r.value.defenderQueue) && r.value.attackerQueue == b.attackerQueue
  {
    var q := b.defenderQueue;
    var (special, opportunities, cursor) := DefenderChooses(cfg, draw, b);
    var b1 := b.(opportunities := opportunities, cursor := cursor);
    if special then
      var q1 :- Enqueue(q, cfg.defender.special.damageStart, PlayerLandsSpecialAttack);
      var q2 :- Enqueue(q1, cfg.defender.special.duration,
                        if initial then PlayerFinishesInitialSpecialAttack else PlayerFinishesSpecialAttack);
      Ok(b1.(defenderQueue := q2, defenderEnergy := b.defenderEnergy + cfg.defender.special.energy))
    else
      var q1 :- Enqueue(q, cfg.defender.fast.damageStart, PlayerLandsFastAttack);
      var q2 :- Enqueue(q1, cfg.defender.fast.duration,
                        if initial then PlayerFinishesInitialFastAttack else PlayerFinishesFastAttack);
      Ok(b1.(defenderQueue := q2,
             defenderEnergy := Credited(b.defenderEnergy, cfg.defender.fast.energy, cfg.defender.maxEnergy)))
  }

  /** The defender opens with its transform and gains its energy at once. */
  function DefenderTransforms(cfg: Config, b: Battle): (r: Outcome<Battle>)
    requires Valid(b.defenderQueue)
    ensures r.Ok? ==> Valid(r.value.defenderQueue) && r.value.attackerQueue == b.attackerQueue
  {
    var q1 :- Enqueue(b.defenderQueue, cfg.transform.damageStart, PlayerLandsTransform);
    var q2 :- Enqueue(q1, cfg.transform.duration, PlayerFinishesTransform);
    Ok(b.(defenderQueue := q2,
          defenderEnergy := Credited(b.defenderEnergy, cfg.transform.energy, cfg.defender.maxEnergy)))
  }

  /** The defender's idle gap after a finished attack, fixed or drawn. */
  function IdleInterval(cfg: Config, draw: nat -> int, cursor: nat): (int, nat)
    requires Drawable(cfg, draw)
  {
    if cfg.randomness then
      (RandomInterval(cfg.defensiveInterval, cfg.defensiveIntervalRandomness, draw(cursor)), cursor + 1)
    else
      (cfg.defensiveInterval, cursor)
  }

  /** The defender's next action after a fired event. */
  function DefenderNext(cfg: Config, draw: nat -> int, b: Battle, e: Event): (r: Outcome<Battle>)
    requires Valid(b.defenderQueue) && Drawable(cfg, draw)
    ensures r.Ok? ==> Valid(r.value.defenderQueue) && r.value.attackerQueue == b.attackerQueue
  {
    var q := b.defenderQueue;
    match e
    case PlayerStartsTransform => DefenderTransforms(cfg, b)
    case PlayerStartsAttack => DefenderStartsAttack(cfg, draw, b, false)
    case PlayerStartsInitialAttack => DefenderStartsAttack(cfg, draw, b, true)
    case PlayerFinishesFastAttack => DefenderIdles(cfg, draw, b)
    case PlayerFinishesSpecialAttack => DefenderIdles(cfg, draw, b)
    case _ => Ok(b)
  }

  /** After a steady-state attack the defender waits and then starts the
      next one. */
  function DefenderIdles(cfg: Config, draw: nat -> int, b: Battle): (r: Outcome<Battle>)
    requires Valid(b.defenderQueue) && Drawable(cfg, draw)
    ensures r.Ok? ==> Valid(r.value.defenderQueue) && r.value.attackerQueue == b.attackerQueue
  {
    var (interval, cursor) := IdleInterval(cfg, draw, b.cursor);
    var q1 :- Enqueue(b.defenderQueue, interval, PlayerStartsAttack);
    Ok(b.(defenderQueue := q1, cursor := cursor))
  }

  /** Both of the defender's reactions to the event it popped. */
  function DefenderActs(cfg: Config, draw: nat -> int, b: Battle, e: Event): (r: Outcome<Battle>)
    requires Valid(b.defenderQueue) && Drawable(cfg, draw)
    ensures r.Ok? ==> Valid(r.value.defenderQueue) && r.value.attackerQueue == b.attackerQueue
  {
    var b1 :- DefenderEffect(cfg, b, e);
    DefenderNext(cfg, draw, b1, e)
  }

  /** If the attacker's next event is due, pop it and react to it. */
  function AttackerTurn(cfg: Config, b: Battle): (r: Outcome<Battle>)
    requires QueuesValid(b)
    ensures r.Ok? ==> QueuesValid(r.value)
  {
    var q := b.attackerQueue;
    if q.slots[0].time >= IntMax then Abort(TimerOnEmptyQueue)
    else if Timer(q) != 0 then Ok(b)
    else
      var (e, q') := Popped(q);
      AttackerActs(cfg, b.(attackerQueue := q'), e)
  }

  /** If the defender's next event is due, pop it and react to it. */
  function DefenderTurn(cfg: Config, draw: nat -> int, b: Battle): (r: Outcome<Battle>)
    requires QueuesValid(b) && Drawable(cfg, draw)
    ensures r.Ok? ==> QueuesValid(r.value)
  {
    var q := b.defenderQueue;
    if q.slots[0].time >= IntMax then Abort(TimerOnEmptyQueue)
    else if Timer(q) != 0 then Ok(b)
    else
      var (e, q') := Popped(q);
      DefenderActs(cfg, draw, b.(defenderQueue := q'), e)
  }

  /** Counting `k` down keeps every real entry of `q` below the sentinel. */
  predicate CanCountDown(q: Queue, k: int)
    requires Valid(q)
  {
    forall i | 0 <= i < q.numEntries :: q.slots[i].time - k < IntMax
  }

  /** Advances both queues and the battle timer to the earlier of the two
      next events. */
  function Tick(b: Battle, nextTime: int): Battle
    requires QueuesValid(b)
    requires CanCountDown(b.attackerQueue, nextTime) && CanCountDown(b.defenderQueue, nextTime)
  {
    b.(attackerQueue := CountedDown(b.attackerQueue, nextTime),
       defenderQueue := CountedDown(b.defenderQueue, nextTime),
       battleTimer := b.battleTimer - nextTime)
  }

  /** One pass of the battle loop. */
  function Step(cfg: Config, draw: nat -> int, b: Battle): (r: Outcome<Battle>)
    requires QueuesValid(b) && Drawable(cfg, draw)
    ensures r.Ok? ==> QueuesValid(r.value)
  {
    var aq, dq := b.attackerQueue, b.defenderQueue;
    if aq.slots[0].time >= IntMax || dq.slots[0].time >= IntMax then Abort(TimerOnEmptyQueue)
    else
      var nextTime := Min(Timer(aq), Timer(dq));
      if !(CanCountDown(aq, nextTime) && CanCountDown(dq, nextTime)) then Abort(TimeOutOfRange)
      else
        var b1 := Tick(b, nextTime);
        var b2 :- AttackerTurn(cfg, b1);
        DefenderTurn(cfg, draw, b2)
  }

  /** The battle loop, for at most `fuel` passes. */
  function RunBattle(cfg: Config, draw: nat -> int, b: Battle, fuel: nat): (r: Outcome<Battle>)
    requires QueuesValid(b) && Drawable(cfg, draw)
    ensures r.Ok? ==> !Running(r.value) && QueuesValid(r.value)
    decreases fuel
  {
    if !Running(b) then Ok(b)
    else if fuel == 0 then Abort(OutOfSteps)
    else
      var b' :- Step(cfg, draw, b);
      RunBattle(cfg, draw, b', fuel - 1)
  }

  /** The third opening interval of the defender, drawn when randomness is
      on, and the oracle position after it. */
  function ThirdInitialInterval(cfg: Config, draw: nat -> int, cursor: nat): (int, nat)
    requires Drawable(cfg, draw)
  {
    if cfg.randomness then
      (RandomInterval(cfg.defensiveThirdInitialInterval, cfg.defensiveIntervalRandomness, draw(cursor)), cursor + 1)
    else
      (cfg.defensiveThirdInitialInterval, cursor)
  }

  /** Adds the records of `rs` one after another, front first. */
  function EnqueueAll(q: Queue, rs: seq<EventRecord>): (r: Outcome<Queue>)
    requires Valid(q)
    ensures r.Ok? ==> Valid(r.value) && r.value.maxEntries == q.maxEntries
    ensures r.Ok? ==> r.value.numEntries == q.numEntries + |rs|
    ensures r.Ok? ==> Entries(r.value) == InsertAll(Entries(q), rs)
    decreases |rs|
  {
    if rs == [] then Ok(q)
    else
      var q1 :- Enqueue(q, rs[0].time, rs[0].event);
      EnqueueAll(q1, rs[1..])
  }

  /** The attacker's opening event. */
  function AttackerSeeds(cfg: Config): seq<EventRecord> {
    [EventRecord(cfg.offensiveInitialInterval,
                 if cfg.attacker.transforms then PlayerStartsTransform else PlayerStartsAttack)]
  }

  /** The defender's three staggered opening events, the third `third`
      after the second. */
  function DefenderSeeds(cfg: Config, third: int): seq<EventRecord> {
    var t1 := cfg.defensiveFirstInitialInterval;
    var t2 := t1 + cfg.defensiveSecondInitialInterval;
    [EventRecord(t1, if cfg.defender.transforms then PlayerStartsTransform else PlayerStartsInitialAttack),
     EventRecord(t2, PlayerStartsInitialAttack),
     EventRecord(t2 + third, PlayerStartsAttack)]
  }

  /** With a non-negative second and third interval the defender's
      opening events come in time order, so the inserts keep them as they
      are. */
  lemma DefenderSeedsInOrder(cfg: Config, third: int)
    ensures cfg.defensiveSecondInitialInterval >= 0 && third >= 0 ==>
              InsertAll([], DefenderSeeds(cfg, third)) == DefenderSeeds(cfg, third)
  {
    var rs := DefenderSeeds(cfg, third);
    if cfg.defensiveSecondInitialInterval >= 0 && third >= 0 {
      assert Sorted(rs[2..]);
      assert rs[1..][1..] == rs[2..];
      assert Sorted(rs[1..]);
      assert Sorted(rs);
      assert [] + rs == rs;
      InsertAllInOrder([], rs);
    }
  }

  /** The attacker's queue at the start of a trial. The queue passed in is
      the one the previous trial left (its storage is reused). */
  function SeedAttacker(cfg: Config, aq: Queue, fill: EventRecord): (r: Outcome<Queue>)
    requires Allocated(aq)
    ensures r.Ok? ==> Valid(r.value) && r.value.maxEntries == 3 && r.value.numEntries == 1
    ensures r.Ok? ==> Entries(r.value) == AttackerSeeds(cfg)
  {
    InsertAllInOrder([], AttackerSeeds(cfg));
    EnqueueAll(Initialize(aq, 1, fill), AttackerSeeds(cfg))
  }

  /** The defender's queue at the start of a trial, and the oracle
      position after the draw for its third opening interval. */
  function SeedDefender(cfg: Config, draw: nat -> int, dq: Queue, cursor: nat, fill: EventRecord)
    : (r: Outcome<(Queue, nat)>)
    requires Allocated(dq) && Drawable(cfg, draw)
    ensures r.Ok? ==> && Valid(r.value.0) && r.value.0.numEntries == 3
                      && r.value.0.maxEntries == 2 * cfg.numDefensiveInitialIntervals + 1
    ensures r.Ok? ==> r.value.1 == if cfg.randomness then cursor + 1 else cursor
    ensures var third := ThirdInitialInterval(cfg, draw, cursor).0;
      r.Ok? ==> Entries(r.value.0) == InsertAll([], DefenderSeeds(cfg, third))
    ensures var third := ThirdInitialInterval(cfg, draw, cursor).0;
      r.Ok? && cfg.defensiveSecondInitialInterval >= 0 && third >= 0 ==>
        Entries(r.value.0) == DefenderSeeds(cfg, third)
  {
    var (third, cursor') := ThirdInitialInterval(cfg, draw, cursor);
    DefenderSeedsInOrder(cfg, third);
    var dq3 :- EnqueueAll(Initialize(dq, cfg.numDefensiveInitialIntervals, fill), DefenderSeeds(cfg, third));
    Ok((dq3, cursor'))
  }

  /** The state at the start of a trial: seeded queues, full HP, no
      energy, no deferred opportunities. */
  function StartBattle(cfg: Config, draw: nat -> int, aq: Queue, dq: Queue, cursor: nat, fill: EventRecord)
    : (r: Outcome<Battle>)
    requires Allocated(aq) && Allocated(dq) && Drawable(cfg, draw)
    ensures r.Ok? ==> QueuesValid(r.value)
    ensures r.Ok? ==> && r.value.battleTimer == cfg.battleDuration
                      && r.value.attackerHP == cfg.attacker.hp && r.value.defenderHP == cfg.defender.hp
                      && r.value.attackerEnergy == 0 && r.value.defenderEnergy == 0
                      && r.value.opportunities == 0
    ensures r.Ok? ==> Entries(r.value.attackerQueue) == AttackerSeeds(cfg)
    ensures r.Ok? ==> r.value.cursor == if cfg.randomness then cursor + 1 else cursor
    ensures var third := ThirdInitialInterval(cfg, draw, cursor).0;
      r.Ok? ==> Entries(r.value.defenderQueue) == InsertAll([], DefenderSeeds(cfg, third))
    ensures var third := ThirdInitialInterval(cfg, draw, cursor).0;
      r.Ok? && cfg.defensiveSecondInitialInterval >= 0 && third >= 0 ==>
        Entries(r.value.defenderQueue) == DefenderSeeds(cfg, third)
  {
    hide SeedAttacker, SeedDefender;
    var aq1 :- SeedAttacker(cfg, aq, fill);
    var (dq3, cursor') :- SeedDefender(cfg, draw, dq, cursor, fill);
    Ok(Battle(aq1, dq3, cfg.battleDuration, cfg.attacker.hp, cfg.defender.hp, 0, 0, 0, cursor'))
  }

  /** One trial: seed, then run the battle loop to its end. */
  function Trial(cfg: Config, draw: nat -> int, aq: Queue, dq: Queue, cursor: nat, fill: EventRecord, fuel: nat)
    : (r: Outcome<Battle>)
    requires Allocated(aq) && Allocated(dq) && Drawable(cfg, draw)
    ensures r.Ok? ==> !Running(r.value) && QueuesValid(r.value)
  {
    var b :- StartBattle(cfg, draw, aq, dq, cursor, fill);
    RunBattle(cfg, draw, b, fuel)
  }

  /** `remaining` trials in a row, each reusing the queues and the oracle
      position the previous one left; the number of attacker wins. */
  function RunTrials(cfg: Config, draw: nat -> int, aq: Queue, dq: Queue, cursor: nat, fill: EventRecord,
                     fuel: nat, remaining: nat): (r: Outcome<nat>)
    requires Allocated(aq) && Allocated(dq) && Drawable(cfg, draw)
    ensures r.Ok? ==> r.value <= remaining
    decreases remaining
  {
    if remaining == 0 then Ok(0)
    else
      var b :- Trial(cfg, draw, aq, dq, cursor, fill, fuel);
      var wins :- RunTrials(cfg, draw, b.attackerQueue, b.defenderQueue, b.cursor, fill, fuel, remaining - 1);
      Ok(wins + if AttackerWins(b) then 1 else 0)
  }

  /** The finished battles of `remaining` trials in a row, each starting
      from the queues and the oracle position the previous one left. */
  function TrialEnds(cfg: Config, draw: nat -> int, aq: Queue, dq: Queue, cursor: nat, fill: EventRecord,
                     fuel: nat, remaining: nat): (r: Outcome<seq<Battle>>)
    requires Allocated(aq) && Allocated(dq) && Drawable(cfg, draw)
    ensures r.Ok? ==> |r.value| == remaining
    decreases remaining
  {
    hide Trial;
    if remaining == 0 then Ok([])
    else
      var b :- Trial(cfg, draw, aq, dq, cursor, fill, fuel);
      var rest :- TrialEnds(cfg, draw, b.attackerQueue, b.defenderQueue, b.cursor, fill, fuel, remaining - 1);
      Ok([b] + rest)
  }

  /** How many of the battles `bs` the attacker won. */
  function Wins(bs: seq<Battle>): (w: nat)
    ensures w <= |bs|
  {
    if bs == [] then 0 else (if AttackerWins(bs[0]) then 1 else 0) + Wins(bs[1..])
  }

  /** The simulation's answer: -1 for more than one trial without
      randomness, otherwise the fraction of trials the attacker wins. */
  function Simulate(cfg: Config, draw: nat -> int, fill: EventRecord, fuel: nat): (r: Outcome<real>)
    requires cfg.numTrials > 0
    requires !ConfigError(cfg.numTrials, cfg.randomness) ==> Drawable(cfg, draw)
    ensures ConfigError(cfg.numTrials, cfg.randomness) ==> r == Ok(-1.0)
    ensures !ConfigError(cfg.numTrials, cfg.randomness) && r.Ok? ==> 0.0 <= r.value <= 1.0
  {
    if ConfigError(cfg.numTrials, cfg.randomness) then Ok(-1.0)
    else
      var wins :- RunTrials(cfg, draw, Unallocated, Unallocated, 0, fill, fuel, cfg.numTrials);
      Ok(WinFraction(wins, cfg.numTrials))
  }

  /** The fraction of `numTrials` trials won. */
  function WinFraction(wins: nat, numTrials: int): (f: real)
    requires 0 < numTrials && wins <= numTrials
    ensures 0.0 <= f <= 1.0
    ensures f == 1.0 <==> wins == numTrials
    ensures f == 0.0 <==> wins == 0
  {
    var n := numTrials as real;
    var f := wins as real / n;
    assert f * n == wins as real;
    assert f == 1.0 ==> wins as real == n;
    assert f == 0.0 ==> wins as real == 0.0;
    f
  }
}

=== FILE: battle_invariants.dfy ===
/** What keeps a battle from tripping any of the simulator's asserts.

    From a sane configuration (non-negative times below INT_MAX, every
    "lands" part of a move due no later than the move's end, energy gains
    and credits that are not negative, special costs that are not
    positive, room for the three opening intervals) the seeded state
    satisfies `Inv`, and every pass of the battle loop keeps it. `Inv` says:

    - the attacker's queue always holds exactly one record that is not a
      "lands" record (its current action), so it never runs dry and never
      holds more than two records in its three slots;
    - the defender's queue holds at most three such records, so at most six
      in its seven or more slots, and exactly one "token" (a steady-state
      start or finish) that keeps it from running dry;
    - every queued time is non-negative, each side's energy lies in
      [0, maxEnergy], and a pending long press is always affordable.

    Hence the only way a modelled run can abort is by running out of the
    step budget.
 */
module BattleInvariants {
  import opened EventQueue
  import opened QueueShape
  import opened BattleRules
  import opened BattleEngine

  /** A move that deals damage, landing within its duration, both in time
      range. */
  predicate MoveOk(m: Move) {
    0 <= m.damageStart <= m.duration < IntMax && m.credit >= 0 && m.damage >= 1
  }

  /** The least and the greatest interval the simulator can use for the
      expected interval `e`. */
  function LeastInterval(cfg: Config, e: int): int {
    if cfg.randomness then e - cfg.defensiveIntervalRandomness / 2 else e
  }

  function GreatestInterval(cfg: Config, e: int): int {
    if cfg.randomness then e - cfg.defensiveIntervalRandomness / 2 + cfg.defensiveIntervalRandomness else e
  }

  /** The configurations the no-fault theorem covers. */
  predicate Sane(cfg: Config) {
    && cfg.attacker.maxEnergy >= 0 && cfg.defender.maxEnergy >= 0
    && MoveOk(cfg.attacker.fast) && MoveOk(cfg.attacker.special)
    && MoveOk(cfg.defender.fast) && MoveOk(cfg.defender.special) && MoveOk(cfg.transform)
    && cfg.attacker.fast.energy >= 0 && cfg.defender.fast.energy >= 0 && cfg.transform.energy >= 0
    && cfg.attacker.special.energy <= 0 && cfg.defender.special.energy <= 0
    && 0 <= cfg.longPressDuration < IntMax
    && 0 <= cfg.offensiveInitialInterval < IntMax
    && (cfg.randomness ==> cfg.defensiveIntervalRandomness >= 0) && cfg.numDefensiveInitialIntervals >= 3
    && 0 <= cfg.defensiveFirstInitialInterval && 0 <= cfg.defensiveSecondInitialInterval
    && 0 <= LeastInterval(cfg, cfg.defensiveThirdInitialInterval)
    && cfg.defensiveFirstInitialInterval + cfg.defensiveSecondInitialInterval
       + GreatestInterval(cfg, cfg.defensiveThirdInitialInterval) < IntMax
    && 0 <= LeastInterval(cfg, cfg.defensiveInterval)
    && GreatestInterval(cfg, cfg.defensiveInterval) < IntMax
  }

  predicate NonNegative(s: seq<EventRecord>) {
    forall x :: x in s ==> x.time >= 0
  }

  /** Events the attacker's queue never holds. */
  predicate NotForAttacker(e: Event) {
    e.NullEvent? || e.PlayerStartsInitialAttack? || e.PlayerFinishesInitialFastAttack?
    || e.PlayerFinishesInitialSpecialAttack?
  }

  /** Events the defender's queue never holds. */
  predicate NotForDefender(e: Event) {
    e.NullEvent? || e.PlayerFinishesLongPress?
  }

  /** The shape every queue keeps: valid, sorted times that are not
      negative, balanced. */
  predicate Shaped(q: Queue) {
    Valid(q) && NonNegative(Entries(q)) && Balanced(Entries(q))
  }

  predicate AttackerOk(cfg: Config, q: Queue, energy: int) {
    && Shaped(q) && q.maxEntries == 3
    && OthersIn(Entries(q)) == 1
    && Count(Entries(q), Null) == 0 && Count(Entries(q), Opener) == 0
    && 0 <= energy <= cfg.attacker.maxEnergy
    && (Count(Entries(q), LongPress) > 0 ==> CanAfford(energy, cfg.attacker.special.energy))
  }

  predicate DefenderOk(cfg: Config, q: Queue, energy: int) {
    && Shaped(q) && q.maxEntries >= 7
    && OthersIn(Entries(q)) <= 3
    && Count(Entries(q), Null) == 0 && Count(Entries(q), LongPress) == 0
    && Count(Entries(q), Token) == 1
    && 0 <= energy <= cfg.defender.maxEnergy
  }

  predicate Inv(cfg: Config, b: Battle) {
    AttackerOk(cfg, b.attackerQueue, b.attackerEnergy) && DefenderOk(cfg, b.defenderQueue, b.defenderEnergy)
  }

  // ----- counting helpers -----

  /** A queue holding a record of some kind is not empty. */
  lemma TagNonEmpty(s: seq<EventRecord>, tag: Tag)
    requires Count(s, tag) > 0
    ensures |s| > 0
  {
  }

  /** A queue balanced with no other records is empty. */
  lemma NoOthersEmpty(s: seq<EventRecord>)
    requires Balanced(s) && OthersIn(s) == 0
    ensures s == []
  {
    BalancedBound(s);
  }

  /** One checked insert into a queue of non-negative times with room for
      it: what happens to its records, balance aside. */
  lemma Inserted(q: Queue, t: int, e: Event)
    requires Valid(q) && NonNegative(Entries(q)) && 0 <= t < IntMax && q.numEntries + 1 < q.maxEntries
    ensures Enqueue(q, t, e).Ok?
    ensures var q' := Enqueue(q, t, e).value;
      && Valid(q') && NonNegative(Entries(q')) && q'.maxEntries == q.maxEntries
      && Entries(q') == InsertSorted(Entries(q), EventRecord(t, e))
      && |Entries(q')| == |Entries(q)| + 1
      && forall tag :: Count(Entries(q'), tag) == Count(Entries(q), tag) + Mark(e, tag)
  {
    var s := Entries(q);
    var r := EventRecord(t, e);
    InsertSortedCount(s, r);
    var s' := InsertSorted(s, r);
    assert forall x :: x in s' ==> x in multiset(s) + multiset{r};
  }

  /** One checked insert of a record that is not a "lands" record into a
      shaped queue with room for it. */
  lemma EnqueueOne(q: Queue, t: int, e: Event)
    requires Shaped(q) && 0 <= t < IntMax && q.numEntries + 1 < q.maxEntries
    requires !IsLands(e)
    ensures Enqueue(q, t, e).Ok?
    ensures var q' := Enqueue(q, t, e).value;
      && Shaped(q') && q'.maxEntries == q.maxEntries
      && |Entries(q')| == |Entries(q)| + 1
      && forall tag :: Count(Entries(q'), tag) == Count(Entries(q), tag) + Mark(e, tag)
  {
    Inserted(q, t, e);
    InsertOtherBalanced(Entries(q), EventRecord(t, e));
  }

  /** A "lands" record and the record finishing the same action, due no
      earlier, inserted into a shaped queue with room for both. */
  lemma EnqueuePair(q: Queue, tl: int, l: Event, tf: int, f: Event)
    requires Shaped(q) && 0 <= tl <= tf < IntMax && q.numEntries + 2 < q.maxEntries
    requires IsLands(l) && !IsLands(f)
    ensures Enqueue(q, tl, l).Ok?
    ensures Enqueue(Enqueue(q, tl, l).value, tf, f).Ok?
    ensures var q' := Enqueue(Enqueue(q, tl, l).value, tf, f).value;
      && Shaped(q') && q'.maxEntries == q.maxEntries
      && |Entries(q')| == |Entries(q)| + 2
      && forall tag :: Count(Entries(q'), tag) == Count(Entries(q), tag) + Mark(l, tag) + Mark(f, tag)
  {
    var s, rl, rf := Entries(q), EventRecord(tl, l), EventRecord(tf, f);
    Inserted(q, tl, l);
    var q1 := Enqueue(q, tl, l).value;
    Inserted(q1, tf, f);
    var q2 := Enqueue(q1, tf, f).value;
    assert Entries(q2) == InsertSorted(InsertSorted(s, rl), rf);
    InsertPairBalanced(s, rl, rf);
  }

  /** Popping the front of a shaped queue. */
  lemma PopShaped(q: Queue)
    requires Shaped(q) && q.numEntries > 0 && q.slots[0].time == 0
    ensures var (e, q') := Popped(q);
      && Shaped(q') && q'.maxEntries == q.maxEntries
      && e == Entries(q)[0].event
      && |Entries(q')| == |Entries(q)| - 1
      && forall tag :: Count(Entries(q), tag) == Mark(e, tag) + Count(Entries(q'), tag)
  {
    var s := Entries(q);
    BalancedTail(s);
    assert forall x :: x in s[1..] ==> x in s;
  }

  // ----- the clock -----

  /** Advancing both queues to the earlier front keeps the invariant and
      leaves at least one front due. */
  lemma TickOk(cfg: Config, b: Battle)
    requires Inv(cfg, b)
    ensures b.attackerQueue.slots[0].time < IntMax && b.defenderQueue.slots[0].time < IntMax
    ensures var nextTime := Min(Timer(b.attackerQueue), Timer(b.defenderQueue));
      && nextTime >= 0
      && CanCountDown(b.attackerQueue, nextTime) && CanCountDown(b.defenderQueue, nextTime)
      && Inv(cfg, Tick(b, nextTime))
  {
    var aq, dq := b.attackerQueue, b.defenderQueue;
    BalancedBound(Entries(aq));
    TagNonEmpty(Entries(dq), Token);
    assert Entries(dq)[0] in Entries(dq);
    assert Entries(aq)[0] in Entries(aq);
    var nextTime := Min(Timer(aq), Timer(dq));
    TickQueue(aq, nextTime);
    TickQueue(dq, nextTime);
  }

  lemma TickQueue(q: Queue, k: int)
    requires Shaped(q) && q.slots[0].time < IntMax && 0 <= k <= Timer(q)
    ensures CanCountDown(q, k)
    ensures var q' := CountedDown(q, k);
      && Shaped(q') && q'.maxEntries == q.maxEntries
      && |Entries(q')| == |Entries(q)|
      && forall tag :: Count(Entries(q'), tag) == Count(Entries(q), tag)
  {
    var s := Entries(q);
    var s' := Entries(CountedDown(q, k));
    forall tag {
      SameTagsCount(s, s', tag);
    }
    BalancedSameTags(s, s');
    forall x | x in s'
      ensures x.time >= 0
    {
      var i :| 0 <= i < |s'| && s'[i] == x;
      assert s[i] in s;
    }
  }

  // ----- the attacker's turn -----

  /** What the attacker's queue and energy satisfy once its only
      non-"lands" record has been popped. */
  predicate AttackerEmptied(cfg: Config, b: Battle) {
    && Valid(b.attackerQueue) && Entries(b.attackerQueue) == [] && b.attackerQueue.maxEntries == 3
    && 0 <= b.attackerEnergy <= cfg.attacker.maxEnergy
  }

  /** An empty attacker queue that receives one action. */
  lemma AttackerActionOk(cfg: Config, q: Queue, energy: int, tl: int, l: Event, tf: int, f: Event)
    requires Valid(q) && Entries(q) == [] && q.maxEntries == 3 && 0 <= energy <= cfg.attacker.maxEnergy
    requires 0 <= tl <= tf < IntMax && IsLands(l) && !IsLands(f) && !NotForAttacker(f) && !f.PlayerFinishesLongPress?
    ensures Enqueue(q, tl, l).Ok? && Enqueue(Enqueue(q, tl, l).value, tf, f).Ok?
    ensures AttackerOk(cfg, Enqueue(Enqueue(q, tl, l).value, tf, f).value, energy)
  {
    assert Shaped(q);
    EnqueuePair(q, tl, l, tf, f);
  }

  /** An empty attacker queue that receives a long press it can afford. */
  lemma AttackerPressOk(cfg: Config, q: Queue, energy: int, t: int)
    requires Valid(q) && Entries(q) == [] && q.maxEntries == 3 && 0 <= energy <= cfg.attacker.maxEnergy
    requires 0 <= t < IntMax && CanAfford(energy, cfg.attacker.special.energy)
    ensures Enqueue(q, t, PlayerFinishesLongPress).Ok?
    ensures AttackerOk(cfg, Enqueue(q, t, PlayerFinishesLongPress).value, energy)
  {
    assert Shaped(q);
    EnqueueOne(q, t, PlayerFinishesLongPress);
  }

  lemma AttackerStartsAttackOk(cfg: Config, b: Battle)
    requires Sane(cfg) && AttackerEmptied(cfg, b)
    ensures AttackerStartsAttack(cfg, b).Ok?
    ensures var b' := AttackerStartsAttack(cfg, b).value;
      && AttackerOk(cfg, b'.attackerQueue, b'.attackerEnergy)
      && b'.defenderQueue == b.defenderQueue && b'.defenderEnergy == b.defenderEnergy
  {
    var q := b.attackerQueue;
    if CanAfford(b.attackerEnergy, cfg.attacker.special.energy) {
      AttackerPressOk(cfg, q, b.attackerEnergy, cfg.longPressDuration);
    } else {
      var energy := Credited(b.attackerEnergy, cfg.attacker.fast.energy, cfg.attacker.maxEnergy);
      AttackerActionOk(cfg, q, energy, cfg.attacker.fast.damageStart, PlayerLandsFastAttack,
                       cfg.attacker.fast.duration, PlayerFinishesFastAttack);
    }
  }

  /** The attacker's next action when the action it just finished was its
      only queued record. */
  lemma AttackerNextOk(cfg: Config, b: Battle, e: Event)
    requires Sane(cfg) && AttackerEmptied(cfg, b)
    requires !IsLands(e) && !NotForAttacker(e)
    requires e.PlayerFinishesLongPress? ==> CanAfford(b.attackerEnergy, cfg.attacker.special.energy)
    ensures AttackerNext(cfg, b, e).Ok?
    ensures var b' := AttackerNext(cfg, b, e).value;
      && AttackerOk(cfg, b'.attackerQueue, b'.attackerEnergy)
      && b'.defenderQueue == b.defenderQueue && b'.defenderEnergy == b.defenderEnergy
  {
    hide AttackerStartsAttack, Enqueue;
    if e.PlayerStartsTransform? {
      AttackerTransformOk(cfg, b);
    } else if e.PlayerFinishesLongPress? {
      AttackerSpecialOk(cfg, b);
    } else {
      AttackerStartsAttackOk(cfg, b);
      assert AttackerNext(cfg, b, e) == AttackerStartsAttack(cfg, b);
    }
  }

  lemma AttackerTransformOk(cfg: Config, b: Battle)
    requires Sane(cfg) && AttackerEmptied(cfg, b)
    ensures AttackerNext(cfg, b, PlayerStartsTransform).Ok?
    ensures var b' := AttackerNext(cfg, b, PlayerStartsTransform).value;
      && AttackerOk(cfg, b'.attackerQueue, b'.attackerEnergy)
      && b'.defenderQueue == b.defenderQueue && b'.defenderEnergy == b.defenderEnergy
  {
    hide Enqueue;
    var energy := Credited(b.attackerEnergy, cfg.transform.energy, cfg.attacker.maxEnergy);
    AttackerActionOk(cfg, b.attackerQueue, energy, cfg.transform.damageStart, PlayerLandsTransform,
                     cfg.transform.duration, PlayerFinishesTransform);
  }

  lemma AttackerSpecialOk(cfg: Config, b: Battle)
    requires Sane(cfg) && AttackerEmptied(cfg, b)
    requires CanAfford(b.attackerEnergy, cfg.attacker.special.energy)
    ensures AttackerNext(cfg, b, PlayerFinishesLongPress).Ok?
    ensures var b' := AttackerNext(cfg, b, PlayerFinishesLongPress).value;
      && AttackerOk(cfg, b'.attackerQueue, b'.attackerEnergy)
      && b'.defenderQueue == b.defenderQueue && b'.defenderEnergy == b.defenderEnergy
  {
    hide Enqueue;
    var energy := b.attackerEnergy + cfg.attacker.special.energy;
    AttackerActionOk(cfg, b.attackerQueue, energy, cfg.attacker.special.damageStart, PlayerLandsSpecialAttack,
                     cfg.attacker.special.duration, PlayerFinishesSpecialAttack);
  }

  lemma AttackerTurnOk(cfg: Config, b: Battle)
    requires Sane(cfg) && Inv(cfg, b)
    ensures AttackerTurn(cfg, b).Ok?
    ensures Inv(cfg, AttackerTurn(cfg, b).value)
  {
    var q := b.attackerQueue;
    var s := Entries(q);
    BalancedBound(s);
    if Timer(q) == 0 {
      PopShaped(q);
      var (e, q') := Popped(q);
      var b1 := b.(attackerQueue := q');
      if IsLands(e) {
        assert AttackerOk(cfg, q', b1.attackerEnergy);
      } else {
        NoOthersEmpty(Entries(q'));
        AttackerNextOk(cfg, b1, e);
      }
    }
  }

  // ----- the defender's turn -----

  /** What the defender's queue satisfies once its front has been popped. */
  predicate DefenderPopped(cfg: Config, q: Queue, energy: int, e: Event) {
    && Shaped(q) && q.maxEntries >= 7
    && OthersIn(Entries(q)) + (if IsLands(e) then 0 else 1) <= 3
    && Count(Entries(q), Null) == 0 && Count(Entries(q), LongPress) == 0
    && Count(Entries(q), Token) + Mark(e, Token) == 1
    && 0 <= energy <= cfg.defender.maxEnergy
    && !NotForDefender(e)
  }

  lemma DefenderChoosesAffordable(cfg: Config, draw: nat -> int, b: Battle)
    ensures DefenderChooses(cfg, draw, b).0 ==> CanAfford(b.defenderEnergy, cfg.defender.special.energy)
  {
  }

  /** The defender's queue, just popped, receiving one action. */
  lemma DefenderPairOk(cfg: Config, q: Queue, energy: int, tl: int, l: Event, tf: int, f: Event)
    requires Shaped(q) && q.maxEntries >= 7 && OthersIn(Entries(q)) <= 2
    requires Count(Entries(q), Null) == 0 && Count(Entries(q), LongPress) == 0
    requires 0 <= energy <= cfg.defender.maxEnergy
    requires 0 <= tl <= tf < IntMax && IsLands(l) && !IsLands(f) && !NotForDefender(f)
    requires Count(Entries(q), Token) + Mark(f, Token) == 1
    ensures Enqueue(q, tl, l).Ok? && Enqueue(Enqueue(q, tl, l).value, tf, f).Ok?
    ensures DefenderOk(cfg, Enqueue(Enqueue(q, tl, l).value, tf, f).value, energy)
  {
    BalancedBound(Entries(q));
    EnqueuePair(q, tl, l, tf, f);
  }

  /** The defender's queue, just popped, receiving its next start. */
  lemma DefenderStartOk(cfg: Config, q: Queue, energy: int, t: int)
    requires Shaped(q) && q.maxEntries >= 7 && OthersIn(Entries(q)) <= 2
    requires Count(Entries(q), Null) == 0 && Count(Entries(q), LongPress) == 0
    requires 0 <= energy <= cfg.defender.maxEnergy
    requires 0 <= t < IntMax && Count(Entries(q), Token) == 0
    ensures Enqueue(q, t, PlayerStartsAttack).Ok?
    ensures DefenderOk(cfg, Enqueue(q, t, PlayerStartsAttack).value, energy)
  {
    BalancedBound(Entries(q));
    EnqueueOne(q, t, PlayerStartsAttack);
  }

  lemma DefenderStartsAttackOk(cfg: Config, draw: nat -> int, b: Battle, initial: bool)
    requires Sane(cfg) && Drawable(cfg, draw)
    requires DefenderPopped(cfg, b.defenderQueue, b.defenderEnergy,
                            if initial then PlayerStartsInitialAttack else PlayerStartsAttack)
    ensures DefenderStartsAttack(cfg, draw, b, initial).Ok?
    ensures var b' := DefenderStartsAttack(cfg, draw, b, initial).value;
      && DefenderOk(cfg, b'.defenderQueue, b'.defenderEnergy)
      && b'.attackerQueue == b.attackerQueue && b'.attackerEnergy == b.attackerEnergy
  {
    hide Enqueue;
    var q := b.defenderQueue;
    DefenderChoosesAffordable(cfg, draw, b);
    var (special, opportunities, cursor) := DefenderChooses(cfg, draw, b);
    var b1 := b.(opportunities := opportunities, cursor := cursor);
    var m := if special then cfg.defender.special else cfg.defender.fast;
    var l := if special then PlayerLandsSpecialAttack else PlayerLandsFastAttack;
    var f := if special then (if initial then PlayerFinishesInitialSpecialAttack else PlayerFinishesSpecialAttack)
             else (if initial then PlayerFinishesInitialFastAttack else PlayerFinishesFastAttack);
    var energy := if special then b.defenderEnergy + cfg.defender.special.energy
                  else Credited(b.defenderEnergy, cfg.defender.fast.energy, cfg.defender.maxEnergy);
    DefenderPairOk(cfg, q, energy, m.damageStart, l, m.duration, f);
    var q2 := Enqueue(Enqueue(q, m.damageStart, l).value, m.duration, f).value;
    assert DefenderStartsAttack(cfg, draw, b, initial) == Ok(b1.(defenderQueue := q2, defenderEnergy := energy));
  }

  lemma IdleIntervalInRange(cfg: Config, draw: nat -> int, cursor: nat)
    requires Sane(cfg) && Drawable(cfg, draw)
    ensures 0 <= IdleInterval(cfg, draw, cursor).0 < IntMax
  {
  }

  lemma DefenderTransformOk(cfg: Config, b: Battle)
    requires Sane(cfg)
    requires DefenderPopped(cfg, b.defenderQueue, b.defenderEnergy, PlayerStartsTransform)
    ensures DefenderTransforms(cfg, b).Ok?
    ensures var b' := DefenderTransforms(cfg, b).value;
      && DefenderOk(cfg, b'.defenderQueue, b'.defenderEnergy)
      && b'.attackerQueue == b.attackerQueue && b'.attackerEnergy == b.attackerEnergy
  {
    hide Enqueue;
    var q := b.defenderQueue;
    var energy := Credited(b.defenderEnergy, cfg.transform.energy, cfg.defender.maxEnergy);
    var m := cfg.transform;
    DefenderPairOk(cfg, q, energy, m.damageStart, PlayerLandsTransform, m.duration, PlayerFinishesTransform);
  }

  lemma DefenderNextOk(cfg: Config, draw: nat -> int, b: Battle, e: Event)
    requires Sane(cfg) && Drawable(cfg, draw)
    requires DefenderPopped(cfg, b.defenderQueue, b.defenderEnergy, e)
    ensures DefenderNext(cfg, draw, b, e).Ok?
    ensures var b' := DefenderNext(cfg, draw, b, e).value;
      && DefenderOk(cfg, b'.defenderQueue, b'.defenderEnergy)
      && b'.attackerQueue == b.attackerQueue && b'.attackerEnergy == b.attackerEnergy
  {
    var q := b.defenderQueue;
    if e.PlayerStartsTransform? {
      DefenderTransformOk(cfg, b);
      assert DefenderNext(cfg, draw, b, e) == DefenderTransforms(cfg, b);
    } else if e.PlayerStartsAttack? {
      DefenderStartsAttackOk(cfg, draw, b, false);
      assert DefenderNext(cfg, draw, b, e) == DefenderStartsAttack(cfg, draw, b, false);
    } else if e.PlayerStartsInitialAttack? {
      DefenderStartsAttackOk(cfg, draw, b, true);
      assert DefenderNext(cfg, draw, b, e) == DefenderStartsAttack(cfg, draw, b, true);
    } else if e.PlayerFinishesFastAttack? || e.PlayerFinishesSpecialAttack? {
      IdleIntervalInRange(cfg, draw, b.cursor);
      var (interval, cursor) := IdleInterval(cfg, draw, b.cursor);
      DefenderStartOk(cfg, q, b.defenderEnergy, interval);
      var q1 := Enqueue(q, interval, PlayerStartsAttack).value;
      assert DefenderNext(cfg, draw, b, e) == Ok(b.(defenderQueue := q1, cursor := cursor));
    } else {
      assert DefenderNext(cfg, draw, b, e) == Ok(b);
    }
  }

  lemma DefenderTurnOk(cfg: Config, draw: nat -> int, b: Battle)
    requires Sane(cfg) && Drawable(cfg, draw) && Inv(cfg, b)
    ensures DefenderTurn(cfg, draw, b).Ok?
    ensures Inv(cfg, DefenderTurn(cfg, draw, b).value)
  {
    var q := b.defenderQueue;
    var s := Entries(q);
    TagNonEmpty(s, Token);
    if Timer(q) == 0 {
      DefenderPopOk(cfg, b);
      var (e, q') := Popped(q);
      var b2 := DefenderEffect(cfg, b.(defenderQueue := q'), e).value;
      DefenderNextOk(cfg, draw, b2, e);
      assert DefenderTurn(cfg, draw, b) == DefenderNext(cfg, draw, b2, e);
    }
  }

  /** The defender pops its due front record and takes the hit or
      finishes the action it stands for. */
  lemma DefenderPopOk(cfg: Config, b: Battle)
    requires Sane(cfg) && Inv(cfg, b)
    requires b.defenderQueue.slots[0].time < IntMax && Timer(b.defenderQueue) == 0
    ensures var (e, q') := Popped(b.defenderQueue);
      && DefenderEffect(cfg, b.(defenderQueue := q'), e).Ok?
      && var b2 := DefenderEffect(cfg, b.(defenderQueue := q'), e).value;
      && DefenderPopped(cfg, b2.defenderQueue, b2.defenderEnergy, e)
      && AttackerOk(cfg, b2.attackerQueue, b2.attackerEnergy)
  {
    var q := b.defenderQueue;
    PopShaped(q);
    var (e, q') := Popped(q);
    DefenderEffectOk(cfg, b.(defenderQueue := q'), e);
  }

  /** A defender hit leaves the attacker's queue and its long-press
      guarantee intact: the attacker's energy only rises, up to its cap. */
  lemma DefenderEffectOk(cfg: Config, b: Battle, e: Event)
    requires Sane(cfg) && AttackerOk(cfg, b.attackerQueue, b.attackerEnergy) && !e.PlayerFinishesLongPress?
    ensures DefenderEffect(cfg, b, e).Ok?
    ensures var b' := DefenderEffect(cfg, b, e).value;
      && AttackerOk(cfg, b'.attackerQueue, b'.attackerEnergy)
      && b'.defenderQueue == b.defenderQueue && b'.defenderEnergy == b.defenderEnergy
  {
  }

  // ----- what single events do -----

  /** Counting down to the earlier of the two fronts makes at least one of
      them due. */
  lemma TickDue(cfg: Config, b: Battle)
    requires Inv(cfg, b)
    ensures b.attackerQueue.slots[0].time < IntMax && b.defenderQueue.slots[0].time < IntMax
    ensures var nextTime := Min(Timer(b.attackerQueue), Timer(b.defenderQueue));
      var b1 := Tick(b, nextTime);
      Timer(b1.attackerQueue) == 0 || Timer(b1.defenderQueue) == 0
  {
    TickOk(cfg, b);
  }

  /** The move a "lands" event of `side` belongs to. */
  function LandedMove(cfg: Config, side: Side, e: Event): Move
    requires IsLands(e)
  {
    if e.PlayerLandsFastAttack? then side.fast
    else if e.PlayerLandsSpecialAttack? then side.special
    else cfg.transform
  }

  /** An attacker "lands" event only hits: the defender loses the move's
      damage and is credited its energy, capped at its maximum; nothing is
      queued and the attacker's own state is untouched. */
  lemma AttackerLandsOnlyHit(cfg: Config, b: Battle, e: Event)
    requires Valid(b.attackerQueue) && IsLands(e)
    ensures var m := LandedMove(cfg, cfg.attacker, e);
      AttackerActs(cfg, b, e)
        == Ok(b.(defenderHP := b.defenderHP - m.damage,
                 defenderEnergy := Credited(b.defenderEnergy, m.credit, cfg.defender.maxEnergy)))
  {
  }

  /** A defender "lands" event only hits, the other way round. */
  lemma DefenderLandsOnlyHit(cfg: Config, draw: nat -> int, b: Battle, e: Event)
    requires Valid(b.defenderQueue) && Drawable(cfg, draw) && IsLands(e)
    ensures var m := LandedMove(cfg, cfg.defender, e);
      DefenderActs(cfg, draw, b, e)
        == Ok(b.(attackerHP := b.attackerHP - m.damage,
                 attackerEnergy := Credited(b.attackerEnergy, m.credit, cfg.attacker.maxEnergy)))
  {
  }

  /** After a steady-state attack the defender queues exactly one start,
      an idle interval later; after an opening attack or its transform it
      queues nothing. */
  lemma DefenderFollowUps(cfg: Config, draw: nat -> int, b: Battle, e: Event)
    requires Valid(b.defenderQueue) && Drawable(cfg, draw)
    ensures e.PlayerFinishesInitialFastAttack? || e.PlayerFinishesInitialSpecialAttack? || e.PlayerFinishesTransform?
            ==> DefenderNext(cfg, draw, b, e) == Ok(b)
    ensures (e.PlayerFinishesFastAttack? || e.PlayerFinishesSpecialAttack?) && DefenderNext(cfg, draw, b, e).Ok?
            ==> var (interval, cursor) := IdleInterval(cfg, draw, b.cursor);
                var b' := DefenderNext(cfg, draw, b, e).value;
                && Entries(b'.defenderQueue) == InsertSorted(Entries(b.defenderQueue), EventRecord(interval, PlayerStartsAttack))
                && b'.cursor == cursor && b'.defenderEnergy == b.defenderEnergy
  {
  }

  /** A finished trial counts as a win exactly when the defender's HP is
      used up, even if the attacker's is too. */
  lemma OneTrialWin(cfg: Config, draw: nat -> int, aq: Queue, dq: Queue, cursor: nat, fill: EventRecord, fuel: nat)
    requires Allocated(aq) && Allocated(dq) && Drawable(cfg, draw)
    requires Trial(cfg, draw, aq, dq, cursor, fill, fuel).Ok?
    ensures var b := Trial(cfg, draw, aq, dq, cursor, fill, fuel).value;
      RunTrials(cfg, draw, aq, dq, cursor, fill, fuel, 1) == Ok(if b.defenderHP <= 0 then 1 else 0)
  {
  }

  /** The win count of a run of trials is the number of finished battles
      in which the defender's HP is used up; the run aborts exactly when
      one of its trials does. */
  lemma {:induction false} RunTrialsCountsWins(cfg: Config, draw: nat -> int, aq: Queue, dq: Queue, cursor: nat,
                                               fill: EventRecord, fuel: nat, remaining: nat)
    requires Allocated(aq) && Allocated(dq) && Drawable(cfg, draw)
    ensures var r, ends := RunTrials(cfg, draw, aq, dq, cursor, fill, fuel, remaining),
                           TrialEnds(cfg, draw, aq, dq, cursor, fill, fuel, remaining);
      && (r.Ok? <==> ends.Ok?)
      && (r.Ok? ==> r.value == Wins(ends.value))
      && (r.Abort? ==> r.fault == ends.fault)
    decreases remaining
  {
    hide Trial, Wins;
    if remaining > 0 {
      var t := Trial(cfg, draw, aq, dq, cursor, fill, fuel);
      if t.Ok? {
        var b := t.value;
        RunTrialsCountsWins(cfg, draw, b.attackerQueue, b.defenderQueue, b.cursor, fill, fuel, remaining - 1);
        var ends := TrialEnds(cfg, draw, b.attackerQueue, b.defenderQueue, b.cursor, fill, fuel, remaining - 1);
        if ends.Ok? {
          WinsCons(b, ends.value);
        }
      }
    }
  }

  lemma WinsCons(b: Battle, bs: seq<Battle>)
    ensures Wins([b] + bs) == (if AttackerWins(b) then 1 else 0) + Wins(bs)
  {
    assert ([b] + bs)[0] == b && ([b] + bs)[1..] == bs;
  }

  /** All battles are attacker wins exactly when the count is full, and
      none exactly when it is zero. */
  lemma {:induction false} WinsExtremes(bs: seq<Battle>)
    ensures Wins(bs) == |bs| <==> forall i :: 0 <= i < |bs| ==> bs[i].defenderHP <= 0
    ensures Wins(bs) == 0 <==> forall i :: 0 <= i < |bs| ==> bs[i].defenderHP > 0
  {
    if bs != [] {
      WinsExtremes(bs[1..]);
      assert forall i :: 1 <= i < |bs| ==> bs[i] == bs[1..][i - 1];
    }
  }

  /** The simulation's answer is the fraction of its trials whose battle
      ended with the defender's HP used up. */
  lemma SimulateCountsWins(cfg: Config, draw: nat -> int, fill: EventRecord, fuel: nat)
    requires cfg.numTrials > 0 && !ConfigError(cfg.numTrials, cfg.randomness) && Drawable(cfg, draw)
    ensures var ends := TrialEnds(cfg, draw, Unallocated, Unallocated, 0, fill, fuel, cfg.numTrials);
      Simulate(cfg, draw, fill, fuel).Ok? <==> ends.Ok?
    ensures var ends := TrialEnds(cfg, draw, Unallocated, Unallocated, 0, fill, fuel, cfg.numTrials);
      ends.Ok? ==> Simulate(cfg, draw, fill, fuel) == Ok(WinFraction(Wins(ends.value), cfg.numTrials))
  {
    RunTrialsCountsWins(cfg, draw, Unallocated, Unallocated, 0, fill, fuel, cfg.numTrials);
  }

  // ----- skipping weaker special attacks -----

  /** Raising the attacker's special cost past its energy ceiling keeps a
      sane configuration sane, so the no-fault theorem still covers it. */
  lemma SkipWeakerSane(cfg: Config, skip: bool, specialNotStronger: bool)
    requires Sane(cfg)
    ensures Sane(SkipWeakerSpecialAttacks(cfg, skip, specialNotStronger))
  {
  }

  /** With weaker special attacks skipped, no state satisfying `Inv` lets
      the attacker afford its special attack, so its queue never holds a
      long press. */
  lemma SkipWeakerNoLongPress(cfg: Config, b: Battle)
    requires Inv(SkipWeakerSpecialAttacks(cfg, true, true), b)
    ensures !CanAfford(b.attackerEnergy, SkipWeakerSpecialAttacks(cfg, true, true).attacker.special.energy)
    ensures Count(Entries(b.attackerQueue), LongPress) == 0
  {
  }

  // ----- the loop -----

  /** One pass of the battle loop from a state satisfying `Inv` never
      aborts and keeps `Inv`. */
  lemma StepOk(cfg: Config, draw: nat -> int, b: Battle)
    requires Sane(cfg) && Drawable(cfg, draw) && Inv(cfg, b)
    ensures Step(cfg, draw, b).Ok?
    ensures Inv(cfg, Step(cfg, draw, b).value)
  {
    TickOk(cfg, b);
    var b1 := Tick(b, Min(Timer(b.attackerQueue), Timer(b.defenderQueue)));
    AttackerTurnOk(cfg, b1);
    var b2 := AttackerTurn(cfg, b1).value;
    DefenderTurnOk(cfg, draw, b2);
    StepUnfolds(cfg, draw, b);
  }

  /** A pass of the loop whose timers are readable and whose attacker turn
      succeeds is the defender's turn after it. */
  lemma StepUnfolds(cfg: Config, draw: nat -> int, b: Battle)
    requires QueuesValid(b) && Drawable(cfg, draw)
    requires b.attackerQueue.slots[0].time < IntMax && b.defenderQueue.slots[0].time < IntMax
    requires var nextTime := Min(Timer(b.attackerQueue), Timer(b.defenderQueue));
      && CanCountDown(b.attackerQueue, nextTime) && CanCountDown(b.defenderQueue, nextTime)
      && AttackerTurn(cfg, Tick(b, nextTime)).Ok?
    ensures var nextTime := Min(Timer(b.attackerQueue), Timer(b.defenderQueue));
      Step(cfg, draw, b) == DefenderTurn(cfg, draw, AttackerTurn(cfg, Tick(b, nextTime)).value)
  {
  }

  /** Seeding a trial from a sane configuration establishes `Inv`. */
  lemma StartBattleOk(cfg: Config, draw: nat -> int, aq: Queue, dq: Queue, cursor: nat, fill: EventRecord)
    requires Sane(cfg) && Drawable(cfg, draw) && Allocated(aq) && Allocated(dq)
    ensures StartBattle(cfg, draw, aq, dq, cursor, fill).Ok?
    ensures Inv(cfg, StartBattle(cfg, draw, aq, dq, cursor, fill).value)
    ensures Entries(StartBattle(cfg, draw, aq, dq, cursor, fill).value.defenderQueue)
            == DefenderSeeds(cfg, ThirdInitialInterval(cfg, draw, cursor).0)
  {
    AttackerSeedOk(cfg, aq, fill);
    DefenderSeedOk(cfg, draw, dq, cursor, fill);
    ThirdInRange(cfg, draw, cursor);
  }

  /** Opening events added one by one to a shaped queue with room for
      them all. */
  lemma {:induction false} EnqueueAllOk(q: Queue, rs: seq<EventRecord>)
    requires Shaped(q) && q.numEntries + |rs| < q.maxEntries
    requires forall r :: r in rs ==> 0 <= r.time < IntMax && !IsLands(r.event)
    ensures EnqueueAll(q, rs).Ok?
    ensures var q' := EnqueueAll(q, rs).value;
      && Shaped(q')
      && forall tag :: Count(Entries(q'), tag) == Count(Entries(q), tag) + Count(rs, tag)
    decreases |rs|
  {
    if rs != [] {
      var r, rest := rs[0], rs[1..];
      EnqueueOne(q, r.time, r.event);
      var q1 := Enqueue(q, r.time, r.event).value;
      assert forall x :: x in rest ==> x in rs;
      EnqueueAllOk(q1, rest);
      assert EnqueueAll(q, rs) == EnqueueAll(q1, rest);
    }
  }

  /** A freshly initialized queue counts nothing. */
  lemma InitializedEmpty(q: Queue, n: int, fill: EventRecord)
    requires Allocated(q) && n >= 0
    ensures Shaped(Initialize(q, n, fill))
    ensures Entries(Initialize(q, n, fill)) == []
  {
  }

  /** The attacker's queue with its one opening event. */
  lemma AttackerSeedOk(cfg: Config, aq: Queue, fill: EventRecord)
    requires Sane(cfg) && Allocated(aq)
    ensures SeedAttacker(cfg, aq, fill).Ok? && AttackerOk(cfg, SeedAttacker(cfg, aq, fill).value, 0)
  {
    InitializedEmpty(aq, 1, fill);
    var rs := AttackerSeeds(cfg);
    EnqueueAllOk(Initialize(aq, 1, fill), rs);
    SingleCount(rs[0], Lands);
  }

  /** The defender's queue with its three staggered opening events. */
  lemma DefenderSeedOk(cfg: Config, draw: nat -> int, dq: Queue, cursor: nat, fill: EventRecord)
    requires Sane(cfg) && Drawable(cfg, draw) && Allocated(dq)
    ensures SeedDefender(cfg, draw, dq, cursor, fill).Ok?
    ensures DefenderOk(cfg, SeedDefender(cfg, draw, dq, cursor, fill).value.0, 0)
  {
    hide ThirdInitialInterval, DefenderSeeds, EnqueueAll;
    var n := cfg.numDefensiveInitialIntervals;
    InitializedEmpty(dq, n, fill);
    ThirdInRange(cfg, draw, cursor);
    DefenderSeedsOk(cfg, Initialize(dq, n, fill), ThirdInitialInterval(cfg, draw, cursor).0);
  }

  /** The three opening events, added to an empty shaped queue with room
      for them, leave it in the defender's starting shape. */
  lemma DefenderSeedsOk(cfg: Config, q: Queue, third: int)
    requires Shaped(q) && Entries(q) == [] && q.maxEntries >= 7 && 0 <= cfg.defender.maxEnergy
    requires 0 <= cfg.defensiveFirstInitialInterval && 0 <= cfg.defensiveSecondInitialInterval && 0 <= third
    requires cfg.defensiveFirstInitialInterval + cfg.defensiveSecondInitialInterval + third < IntMax
    ensures EnqueueAll(q, DefenderSeeds(cfg, third)).Ok?
    ensures DefenderOk(cfg, EnqueueAll(q, DefenderSeeds(cfg, third)).value, 0)
  {
    hide Count, DefenderSeeds, InsertAll, InsertSorted;
    var rs := DefenderSeeds(cfg, third);
    DefenderSeedCounts(cfg, third);
    EmptyCount(Entries(q));
    EnqueueAllOk(q, rs);
  }

  /** The three opening events: in time range, no "lands" record, and
      exactly one of the defender's steady attack cycle. */
  lemma DefenderSeedCounts(cfg: Config, third: int)
    requires 0 <= cfg.defensiveFirstInitialInterval && 0 <= cfg.defensiveSecondInitialInterval && 0 <= third
    requires cfg.defensiveFirstInitialInterval + cfg.defensiveSecondInitialInterval + third < IntMax
    ensures var rs := DefenderSeeds(cfg, third);
      && |rs| == 3
      && (forall r :: r in rs ==> 0 <= r.time < IntMax && !IsLands(r.event))
      && Count(rs, Lands) == 0 && Count(rs, Token) == 1
      && Count(rs, LongPress) == 0 && Count(rs, Null) == 0
  {
    var rs := DefenderSeeds(cfg, third);
    TripleCount(rs, Lands);
    TripleCount(rs, Token);
    TripleCount(rs, LongPress);
    TripleCount(rs, Null);
  }

  /** An empty sequence counts nothing. */
  lemma EmptyCount(s: seq<EventRecord>)
    requires s == []
    ensures forall tag :: Count(s, tag) == 0
  {
  }

  lemma ThirdInRange(cfg: Config, draw: nat -> int, cursor: nat)
    requires Sane(cfg) && Drawable(cfg, draw)
    ensures var third := ThirdInitialInterval(cfg, draw, cursor).0;
      0 <= third && cfg.defensiveFirstInitialInterval + cfg.defensiveSecondInitialInterval + third < IntMax
  {
  }

  /** A battle run from `Inv` can only abort by exhausting its step
      budget. */
  lemma {:induction false} RunBattleOk(cfg: Config, draw: nat -> int, b: Battle, fuel: nat)
    requires Sane(cfg) && Drawable(cfg, draw) && Inv(cfg, b)
    ensures RunBattle(cfg, draw, b, fuel).Abort? ==> RunBattle(cfg, draw, b, fuel).fault == OutOfSteps
    decreases fuel
  {
    hide Step;
    if Running(b) && fuel > 0 {
      var b' := RunBattleSteps(cfg, draw, b, fuel);
      RunBattleOk(cfg, draw, b', fuel - 1);
    }
  }

  /** A running battle with budget left takes a step that keeps `Inv` and
      continues from the stepped state. */
  lemma RunBattleSteps(cfg: Config, draw: nat -> int, b: Battle, fuel: nat) returns (b': Battle)
    requires Sane(cfg) && Drawable(cfg, draw) && Inv(cfg, b) && Running(b) && fuel > 0
    ensures Inv(cfg, b')
    ensures RunBattle(cfg, draw, b, fuel) == RunBattle(cfg, draw, b', fuel - 1)
  {
    StepOk(cfg, draw, b);
    b' := Step(cfg, draw, b).value;
  }

  lemma {:induction false} RunTrialsOk(cfg: Config, draw: nat -> int, aq: Queue, dq: Queue, cursor: nat,
                                       fill: EventRecord, fuel: nat, remaining: nat)
    requires Sane(cfg) && Drawable(cfg, draw) && Allocated(aq) && Allocated(dq)
    ensures var r := RunTrials(cfg, draw, aq, dq, cursor, fill, fuel, remaining);
      r.Abort? ==> r.fault == OutOfSteps
    decreases remaining
  {
    hide Step, StartBattle, RunBattle, Inv, InsertAll, DefenderSeeds, ThirdInitialInterval;
    if remaining > 0 {
      StartBattleOk(cfg, draw, aq, dq, cursor, fill);
      var b := StartBattle(cfg, draw, aq, dq, cursor, fill).value;
      RunBattleOk(cfg, draw, b, fuel);
      var t := Trial(cfg, draw, aq, dq, cursor, fill, fuel);
      if t.Ok? {
        RunTrialsOk(cfg, draw, t.value.attackerQueue, t.value.defenderQueue, t.value.cursor, fill, fuel,
                    remaining - 1);
      }
    }
  }

  /** The whole simulation from a sane configuration trips no assert: it
      either answers or, in the model only, runs out of steps. */
  lemma SimulateOk(cfg: Config, draw: nat -> int, fill: EventRecord, fuel: nat)
    requires Sane(cfg) && cfg.numTrials > 0
    requires !ConfigError(cfg.numTrials, cfg.randomness) ==> Drawable(cfg, draw)
    ensures Simulate(cfg, draw, fill, fuel).Abort? ==> Simulate(cfg, draw, fill, fuel).fault == OutOfSteps
  {
    if !ConfigError(cfg.numTrials, cfg.randomness) {
      RunTrialsOk(cfg, draw, Unallocated, Unallocated, 0, fill, fuel, cfg.numTrials);
    }
  }
}

=== FILE: battle_rules.dfy ===
/** The integer building blocks of the battle simulator: `Min`, `Max`, the
    jittered interval drawn from `rand()`, the per-battle constants a trial
    reads, the "skip weaker special attacks" switch and the defender's
    decision to use or defer an affordable special attack.

    Every per-battle constant is already an integer here: damage per hit,
    the energy credited per hit (the rounded `damage * energyPerDamage +
    tolerance`), the defender's starting HP after its multiplier, and so on.
    A call of `rand()` is a draw from an oracle, a value in [0, RandMax].
 */
module BattleRules {

  /** RAND_MAX of the Microsoft C runtime the simulator is built with. */
  const RandMax: int := 0x7fff

  /** A value `rand()` can return. */
  predicate IsDraw(u: int) {
    0 <= u <= RandMax
  }

  /** A source of `rand()` results: the n-th call returns `draw(n)`. */
  ghost predicate IsOracle(draw: nat -> int) {
    forall n: nat :: IsDraw(draw(n))
  }

  function Min(number1: int, number2: int): (m: int)
    ensures m <= number1 && m <= number2
    ensures m == number1 || m == number2
  {
    if number1 < number2 then number1 else number2
  }

  function Max(number1: int, number2: int): (m: int)
    ensures m >= number1 && m >= number2
    ensures m == number1 || m == number2
  {
    if number1 > number2 then number1 else number2
  }

  /** C's integer `/` by a positive divisor: the quotient truncated toward
      zero, where Dafny's `/` rounds down. */
  function TruncDiv(a: int, d: int): (q: int)
    requires d > 0
    ensures 0 <= a ==> 0 <= q && q * d <= a < q * d + d
    ensures a < 0 ==> q <= 0 && q * d - d < a <= q * d
  {
    if a >= 0 then a / d else -((-a) / d)
  }

  /** `(randomness + 1) * u / (RAND_MAX + 1)` truncated to an int. RAND_MAX + 1
      is a power of two, so the double quotient is exact and the cast
      truncates it toward zero, as C's integer `/` does. */
  function Jitter(intervalRandomness: int, u: int): (k: int)
    requires IsDraw(u)
    ensures intervalRandomness >= 0 ==> 0 <= k <= intervalRandomness
    ensures intervalRandomness < 0 ==> intervalRandomness + 1 <= k <= 0
  {
    var product := (intervalRandomness + 1) * u;
    ScaledDraw(intervalRandomness + 1, u);
    TruncDiv(product, RandMax + 1)
  }

  /** A draw scales a factor `a` to at most `a * RandMax` in size, with
      the sign of `a`. */
  lemma ScaledDraw(a: int, u: int)
    requires IsDraw(u)
    ensures 0 <= a ==> 0 <= a * u <= a * RandMax
    ensures a < 0 ==> a * RandMax <= a * u <= 0
  {
    if 0 <= a {
      assert a * u <= a * RandMax by { assert a * (RandMax - u) >= 0; }
    } else {
      assert a * RandMax <= a * u by { assert (-a) * (RandMax - u) >= 0; }
    }
  }

  /** An interval chosen by the draw `u` among `intervalRandomness + 1`
      values starting at `expectedInterval - intervalRandomness / 2`, both
      quotients truncated toward zero. */
  function RandomInterval(expectedInterval: int, intervalRandomness: int, u: int): (r: int)
    requires IsDraw(u)
    ensures intervalRandomness >= 0 ==> expectedInterval - intervalRandomness / 2 <= r
    ensures intervalRandomness >= 0 ==> r <= expectedInterval - intervalRandomness / 2 + intervalRandomness
    ensures intervalRandomness < 0 ==>
              var intervalStart := expectedInterval - TruncDiv(intervalRandomness, 2);
              intervalStart + intervalRandomness + 1 <= r <= intervalStart
  {
    var intervalStart := expectedInterval - TruncDiv(intervalRandomness, 2);
    intervalStart + Jitter(intervalRandomness, u)
  }

  /** The integer constants of one move. `energy` is the energy the move
      gives its user (fast attacks, the transform) or, for a special attack,
      its cost stored as a non-positive number. `credit` is the energy the
      damaged side receives each time the move lands. */
  datatype Move = Move(damage: int, credit: int, energy: int, damageStart: int, duration: int)

  /** One combatant: its starting battle HP, its energy ceiling, its two
      moves and whether it opens with a transform. */
  datatype Side = Side(hp: int, maxEnergy: int, fast: Move, special: Move, transforms: bool)

  /** Everything a trial reads, fixed before the first trial. */
  datatype Config = Config(
    attacker: Side,
    defender: Side,
    transform: Move,
    randomness: bool,
    numTrials: int,
    battleDuration: int,
    longPressDuration: int,
    offensiveInitialInterval: int,
    numDefensiveInitialIntervals: int,
    defensiveFirstInitialInterval: int,
    defensiveSecondInitialInterval: int,
    defensiveThirdInitialInterval: int,
    defensiveInterval: int,
    defensiveIntervalRandomness: int,
    numDefensiveSpecialAttackDeferrals: int,
    deferLimit: int)

  /** A fixed number of trials only makes sense with randomness. */
  predicate ConfigError(numTrials: int, randomness: bool) {
    numTrials > 1 && !randomness
  }

  /** With the switch on and a special attack no stronger per second than
      the fast attack, the attacker's special attack cost is made one more
      than its energy can ever reach. */
  function SkipWeakerSpecialAttacks(cfg: Config, skip: bool, specialNotStronger: bool): (c: Config)
    ensures skip && specialNotStronger ==> c.attacker.special.energy + c.attacker.maxEnergy < 0
    ensures skip && specialNotStronger ==> c.attacker.special.energy == -(cfg.attacker.maxEnergy + 1)
    ensures !(skip && specialNotStronger) ==> c == cfg
    ensures c.(attacker := cfg.attacker) == cfg
    ensures c.attacker.(special := cfg.attacker.special) == cfg.attacker
    ensures c.attacker.special.(energy := cfg.attacker.special.energy) == cfg.attacker.special
  {
    if skip && specialNotStronger then
      cfg.(attacker := cfg.attacker.(special := cfg.attacker.special.(energy := -(cfg.attacker.maxEnergy + 1))))
    else
      cfg
  }

  /** A player can afford its special attack. */
  predicate CanAfford(energy: int, specialAttackEnergy: int) {
    energy >= -specialAttackEnergy
  }

  /** The defender's choice at an affordable special attack: with randomness
      it attacks when the draw's fraction of RAND_MAX + 1 exceeds the
      deferral probability (`deferLimit` is that probability times
      RAND_MAX + 1, rounded down); without, it counts the opportunity and
      attacks once the count exceeds the allowed deferrals, resetting the
      count. Returns whether the defender uses its special attack now
      (`true`; `false` means it defers it) and the new count. */
  function Defer(randomness: bool, numDeferrals: int, deferLimit: int, opportunities: int, u: int): (d: (bool, int))
    ensures randomness ==> d.1 == opportunities
    ensures !randomness && d.0 ==> d.1 == 0
    ensures !randomness && !d.0 ==> d.1 == opportunities + 1
  {
    if randomness then
      (u > deferLimit, opportunities)
    else if opportunities + 1 > numDeferrals then
      (true, 0)
    else
      (false, opportunities + 1)
  }

  /** The opportunity count after `m` affordable opportunities without
      randomness, starting from a fresh trial. */
  function OpportunitiesAfter(numDeferrals: int, m: nat): int {
    if m == 0 then 0 else Defer(false, numDeferrals, 0, OpportunitiesAfter(numDeferrals, m - 1), 0).1
  }

  /** Without randomness the defender attacks on exactly every
      (numDeferrals + 1)-th affordable opportunity and defers on all the
      others. */
  lemma {:induction false} DeferralCadence(numDeferrals: int, m: nat, deferLimit: int, u: int)
    requires numDeferrals >= 0
    ensures OpportunitiesAfter(numDeferrals, m) == m % (numDeferrals + 1)
    ensures (Defer(false, numDeferrals, deferLimit, OpportunitiesAfter(numDeferrals, m), u).0
             <==> (m + 1) % (numDeferrals + 1) == 0)
  {
    var d := numDeferrals + 1;
    if m > 0 {
      DeferralCadence(numDeferrals, m - 1, deferLimit, u);
      ModSucc(m - 1, d);
    }
    ModSucc(m, d);
  }

  lemma ModSucc(m: nat, d: int)
    requires d >= 1
    ensures m % d + 1 < d ==> (m + 1) % d == m % d + 1
    ensures m % d + 1 == d ==> (m + 1) % d == 0
  {
    var q, r := m / d, m % d;
    assert m == d * q + r;
    if r + 1 < d {
      ModOfSum(m + 1, d, q, r + 1);
    } else {
      assert m + 1 == d * (q + 1);
      ModOfSum(m + 1, d, q + 1, 0);
    }
  }

  lemma ModOfSum(x: int, d: int, q: int, r: int)
    requires d >= 1 && 0 <= r < d && x == d * q + r
    ensures x % d == r
  {
    var q', r' := x / d, x % d;
    assert x == d * q' + r';
    assert d * (q - q') == d * q - d * q';
    assert d * (q - q') == r' - r;
    if q - q' >= 1 {
      MulAtLeast(d, q - q');
    } else if q' - q >= 1 {
      MulAtLeast(d, q' - q);
    }
  }

  lemma MulAtLeast(d: int, k: int)
    requires d >= 1 && k >= 1
    ensures d * k >= d
  {
  }
}

=== FILE: event_queue.dfy ===
/** A model of the per-player countdown event queue.

    The queue is a fixed-capacity array of (time, event) records kept sorted
    ascending by remaining time. Slot `numEntries` always holds a sentinel
    record (time INT_MAX, NullEvent), so that the front of an empty queue
    never reads as due. The array is modelled as an immutable sequence of
    slots: each operation returns the new queue value instead of writing in
    place. The functions `Added`, `CountedDown` and `Popped` are the
    reference semantics; the methods `Add`, `CountDown` and `Pop` run the
    same shifting loops as the array code and are proved to compute them.
 */
module EventQueue {

  /** The player event tags, in the order they are declared. */
  datatype Event =
    | NullEvent
    | PlayerStartsAttack
    | PlayerStartsInitialAttack
    | PlayerStartsTransform
    | PlayerFinishesLongPress
    | PlayerLandsFastAttack
    | PlayerLandsSpecialAttack
    | PlayerLandsTransform
    | PlayerFinishesFastAttack
    | PlayerFinishesInitialFastAttack
    | PlayerFinishesSpecialAttack
    | PlayerFinishesInitialSpecialAttack
    | PlayerFinishesTransform

  /** One queued event and the time remaining until it fires. */
  datatype EventRecord = EventRecord(time: int, event: Event)

  /** INT_MAX of a 32-bit int: the "never fires" time of the sentinel. */
  const IntMax: int := 0x7fff_ffff

  const Sentinel := EventRecord(IntMax, NullEvent)

  /** The array `queue` (as `slots`), its fill level and its capacity. */
  datatype Queue = Queue(slots: seq<EventRecord>, numEntries: int, maxEntries: int)

  /** A queue as the constructor leaves it: no storage yet. */
  const Unallocated := Queue([], 0, 0)

  /** The storage really has `maxEntries` slots. */
  predicate Allocated(q: Queue) {
    0 <= q.maxEntries == |q.slots|
  }

  /** Ascending by time: the front is due no later than any record behind
      it, and the rest is sorted in turn. */
  predicate Sorted(s: seq<EventRecord>) {
    |s| == 0 || ((forall j :: 0 < j < |s| ==> s[0].time <= s[j].time) && Sorted(s[1..]))
  }

  /** `Sorted` compares every pair of records. */
  lemma {:induction false} SortedPairs(s: seq<EventRecord>)
    requires Sorted(s)
    ensures forall i, j :: 0 <= i < j < |s| ==> s[i].time <= s[j].time
  {
    if |s| > 0 {
      SortedPairs(s[1..]);
      forall i, j | 0 < i < j < |s|
        ensures s[i].time <= s[j].time
      {
        assert s[1..][i - 1] == s[i] && s[1..][j - 1] == s[j];
      }
    }
  }

  /** Records ordered pair by pair are `Sorted`. */
  lemma {:induction false} PairsSorted(s: seq<EventRecord>)
    requires forall i, j :: 0 <= i < j < |s| ==> s[i].time <= s[j].time
    ensures Sorted(s)
  {
    if |s| > 0 {
      var t := s[1..];
      forall i, j | 0 <= i < j < |t|
        ensures t[i].time <= t[j].time
      {
        assert t[i] == s[i + 1] && t[j] == s[j + 1];
      }
      PairsSorted(t);
    }
  }

  /** The representation invariant: the real entries are sorted and lie
      below INT_MAX, and the sentinel sits just past them, in bounds. */
  predicate Valid(q: Queue) {
    && 0 <= q.numEntries < q.maxEntries == |q.slots|
    && q.slots[q.numEntries] == Sentinel
    && Sorted(q.slots[..q.numEntries])
    && forall i :: 0 <= i < q.numEntries ==> q.slots[i].time < IntMax
  }

  /** The real entries, front first. */
  function Entries(q: Queue): seq<EventRecord>
    requires Valid(q)
  {
    q.slots[..q.numEntries]
  }

  /** Resets the queue to empty with room for `2 * numInitialIntervals + 1`
      records, reallocating the storage only when that capacity differs from
      the current one. Freshly allocated slots hold indeterminate values,
      modelled by `fill`. */
  function Initialize(q: Queue, numInitialIntervals: int, fill: EventRecord): (r: Queue)
    requires Allocated(q)
    requires numInitialIntervals >= 0
    ensures Valid(r) && Entries(r) == []
    ensures r.maxEntries == 2 * numInitialIntervals + 1
    ensures r.slots[0] == Sentinel
    ensures q.maxEntries == r.maxEntries ==> r.slots[1..] == q.slots[1..]
    ensures q.maxEntries != r.maxEntries ==> forall i :: 1 <= i < |r.slots| ==> r.slots[i] == fill
  {
    var maxEntries := 2 * numInitialIntervals + 1;
    var storage := if q.maxEntries != maxEntries then seq(maxEntries, _ => fill) else q.slots;
    Queue(storage[0 := Sentinel], 0, maxEntries)
  }

  /** The time until the next event. Defined only when the front is not the
      sentinel, which is exactly when the queue is non-empty. */
  function Timer(q: Queue): (t: int)
    requires Valid(q) && q.slots[0].time < IntMax
    ensures q.numEntries > 0
    ensures t == Entries(q)[0].time
    ensures forall i :: 0 <= i < q.numEntries ==> t <= q.slots[i].time
  {
    assert q.numEntries != 0;
    q.slots[0].time
  }

  /** The number of leading records whose time is at most `t`. */
  function SplitPoint(s: seq<EventRecord>, t: int): (p: nat)
    ensures p <= |s|
    ensures forall i :: 0 <= i < p ==> s[i].time <= t
    ensures p < |s| ==> s[p].time > t
  {
    if |s| == 0 || s[0].time > t then 0 else 1 + SplitPoint(s[1..], t)
  }

  /** In a sorted sequence, the entries before the split point are exactly
      those whose time is at most `t`. */
  lemma SplitPointSorted(s: seq<EventRecord>, t: int)
    requires Sorted(s)
    ensures forall i :: 0 <= i < |s| ==> (s[i].time <= t <==> i < SplitPoint(s, t))
  {
    var p := SplitPoint(s, t);
    SortedPairs(s);
    forall i | 0 <= i < |s| && p <= i
      ensures s[i].time > t
    {
      assert s[p].time <= s[i].time;
    }
  }

  /** Reference ordered insert: `r` goes after every record whose time is at
      most its own, scanning from the front. */
  function InsertSorted(s: seq<EventRecord>, r: EventRecord): (s': seq<EventRecord>)
    ensures |s'| == |s| + 1
    ensures multiset(s') == multiset(s) + multiset{r}
  {
    var p := SplitPoint(s, r.time);
    assert s == s[..p] + s[p..];
    s[..p] + [r] + s[p..]
  }

  /** The ordered insert keeps a sorted sequence sorted. */
  lemma InsertSortedSorted(s: seq<EventRecord>, r: EventRecord)
    requires Sorted(s)
    ensures Sorted(InsertSorted(s, r))
  {
    SplitPointSorted(s, r.time);
    SortedPairs(s);
    PairsSorted(InsertSorted(s, r));
  }

  /** The records of `rs` inserted into `s` one after another, front
      first, as a run of `Add` calls does. */
  function InsertAll(s: seq<EventRecord>, rs: seq<EventRecord>): (s': seq<EventRecord>)
    ensures |s'| == |s| + |rs|
    ensures multiset(s') == multiset(s) + multiset(rs)
    decreases |rs|
  {
    if rs == [] then s
    else
      assert rs == [rs[0]] + rs[1..];
      InsertAll(InsertSorted(s, rs[0]), rs[1..])
  }

  /** A record no earlier than every record of `s` goes at the end. */
  lemma {:induction false} InsertAtEnd(s: seq<EventRecord>, r: EventRecord)
    requires forall i :: 0 <= i < |s| ==> s[i].time <= r.time
    ensures InsertSorted(s, r) == s + [r]
  {
    SplitPointAll(s, r.time);
    assert s[..|s|] == s;
  }

  lemma {:induction false} SplitPointAll(s: seq<EventRecord>, t: int)
    requires forall i :: 0 <= i < |s| ==> s[i].time <= t
    ensures SplitPoint(s, t) == |s|
    decreases |s|
  {
    if |s| > 0 {
      SplitPointAll(s[1..], t);
    }
  }

  /** Records that arrive in time order after those already present are
      simply appended: the inserts never shift anything. */
  lemma {:induction false} InsertAllInOrder(s: seq<EventRecord>, rs: seq<EventRecord>)
    requires Sorted(s + rs)
    ensures InsertAll(s, rs) == s + rs
    decreases |rs|
  {
    if rs != [] {
      var all := s + rs;
      SortedPairs(all);
      forall i | 0 <= i < |s|
        ensures s[i].time <= rs[0].time
      {
        assert all[i] == s[i] && all[|s|] == rs[0];
      }
      InsertAtEnd(s, rs[0]);
      assert (s + [rs[0]]) + rs[1..] == all;
      InsertAllInOrder(s + [rs[0]], rs[1..]);
    }
  }

  /** The queue after `Add(t, e)`: the records shifted back by one slot from
      the insertion point, the sentinel included, and the slots past it
      untouched. */
  function Added(q: Queue, t: int, e: Event): (q': Queue)
    requires Valid(q) && t < IntMax && q.numEntries + 1 < q.maxEntries
    ensures Valid(q')
    ensures q'.numEntries == q.numEntries + 1 && q'.maxEntries == q.maxEntries
    ensures Entries(q') == InsertSorted(Entries(q), EventRecord(t, e))
  {
    var s := InsertSorted(Entries(q), EventRecord(t, e));
    InsertSortedSorted(Entries(q), EventRecord(t, e));
    var q' := Queue(s + [Sentinel] + q.slots[q.numEntries + 2..], q.numEntries + 1, q.maxEntries);
    assert q'.slots[..q'.numEntries] == s;
    assert forall i :: 0 <= i < |s| ==> s[i] in multiset(s);
    q'
  }

  /** Every record with its time lowered by `k`. */
  function Decremented(s: seq<EventRecord>, k: int): seq<EventRecord> {
    seq(|s|, i requires 0 <= i < |s| => EventRecord(s[i].time - k, s[i].event))
  }

  /** The queue after `CountDown(k)`: only the real entries change. The
      caller must not push an entry up to the sentinel's time. */
  function CountedDown(q: Queue, k: int): (q': Queue)
    requires Valid(q)
    requires forall i :: 0 <= i < q.numEntries ==> q.slots[i].time - k < IntMax
    ensures Valid(q')
    ensures q'.numEntries == q.numEntries && q'.maxEntries == q.maxEntries
    ensures forall i :: 0 <= i < q.numEntries ==>
              Entries(q')[i].event == Entries(q)[i].event && Entries(q')[i].time == Entries(q)[i].time - k
    ensures q'.slots[q.numEntries..] == q.slots[q.numEntries..]
  {
    var s := Decremented(Entries(q), k);
    SortedPairs(Entries(q));
    PairsSorted(s);
    var q' := Queue(s + q.slots[q.numEntries..], q.numEntries, q.maxEntries);
    assert q'.slots[..q'.numEntries] == s;
    q'
  }

  /** `Pop()`: the front record's event, and the queue with every slot from
      the second to the sentinel shifted forward by one. */
  function Popped(q: Queue): (res: (Event, Queue))
    requires Valid(q) && q.slots[0].time == 0
    ensures q.numEntries > 0
    ensures res.0 == Entries(q)[0].event
    ensures Valid(res.1)
    ensures res.1.numEntries == q.numEntries - 1 && res.1.maxEntries == q.maxEntries
    ensures Entries(res.1) == Entries(q)[1..]
  {
    assert q.numEntries != 0;
    var q' := Queue(q.slots[1..q.numEntries + 1] + q.slots[q.numEntries..], q.numEntries - 1, q.maxEntries);
    assert q'.slots[..q'.numEntries] == Entries(q)[1..];
    (q.slots[0].event, q')
  }

  /** The slots the array insert leaves behind, given where it stopped. */
  lemma AddShape(q: Queue, a: seq<EventRecord>, p: nat, r: EventRecord)
    requires Valid(q) && q.numEntries + 1 < q.maxEntries
    requires p <= q.numEntries && p == SplitPoint(Entries(q), r.time)
    requires |a| == |q.slots|
    requires forall j :: 0 <= j < p ==> a[j] == q.slots[j]
    requires a[p] == r
    requires forall j :: p + 1 <= j <= q.numEntries + 1 ==> a[j] == q.slots[j - 1]
    requires forall j :: q.numEntries + 2 <= j < |a| ==> a[j] == q.slots[j]
    ensures a == InsertSorted(Entries(q), r) + [Sentinel] + q.slots[q.numEntries + 2..]
  {
    var n := q.numEntries;
    var s := Entries(q);
    var b := InsertSorted(s, r) + [Sentinel] + q.slots[n + 2..];
    assert InsertSorted(s, r) == s[..p] + [r] + s[p..];
    assert |a| == |b|;
    forall j | 0 <= j < |a|
      ensures a[j] == b[j]
    {
      if j < p {
      } else if j == p {
      } else if j <= n {
        assert b[j] == s[j - 1];
      } else if j == n + 1 {
      } else {
        assert b[j] == q.slots[n + 2..][j - (n + 2)];
      }
    }
  }

  /** Where the backward scan of the array insert stops is the reference
      insertion point. */
  lemma AddStopPoint(q: Queue, i: int, t: int)
    requires Valid(q) && t < IntMax
    requires -1 <= i <= q.numEntries
    requires i >= 0 ==> q.slots[i].time <= t
    requires forall j :: i < j <= q.numEntries ==> q.slots[j].time > t
    ensures i + 1 <= q.numEntries
    ensures SplitPoint(Entries(q), t) == i + 1
  {
    var s := Entries(q);
    var p := i + 1;
    SortedPairs(s);
    assert p <= q.numEntries;
    assert forall j :: 0 <= j < p ==> s[j].time <= t by {
      if p > 0 {
        assert s[p - 1].time <= t;
      }
    }
    assert p < |s| ==> s[p].time > t;
  }

  /** The array insert: starting at the sentinel, shift every record whose
      time is strictly greater than `t` back by one slot, then write the new
      record into the gap. It writes slot `numEntries + 1`, so it needs
      `numEntries + 1 < maxEntries`. */
  method Add(q: Queue, t: int, e: Event) returns (q': Queue)
    requires Valid(q) && t < IntMax && q.numEntries + 1 < q.maxEntries
    ensures q' == Added(q, t, e)
  {
    hide Added, InsertSorted, SplitPoint;
    var n := q.numEntries;
    var a := q.slots;
    var i := n;
    while i >= 0 && a[i].time > t
      invariant -1 <= i <= n
      invariant |a| == |q.slots|
      invariant forall j :: 0 <= j <= i ==> a[j] == q.slots[j]
      invariant forall j :: i + 1 < j <= n + 1 ==> a[j] == q.slots[j - 1]
      invariant forall j :: n + 2 <= j < |a| ==> a[j] == q.slots[j]
      invariant forall j :: i < j <= n ==> q.slots[j].time > t
      decreases i
    {
      a := a[i + 1 := a[i]];
      i := i - 1;
    }
    AddStopPoint(q, i, t);
    var p := i + 1;
    a := a[p := EventRecord(t, e)];
    AddShape(q, a, p, EventRecord(t, e));
    AddedSlots(q, t, e);
    q' := Queue(a, n + 1, q.maxEntries);
  }

  /** The slots `Added` builds: the ordered entries, the sentinel, and the
      unused tail as it was. */
  lemma AddedSlots(q: Queue, t: int, e: Event)
    requires Valid(q) && t < IntMax && q.numEntries + 1 < q.maxEntries
    ensures Added(q, t, e) == Queue(InsertSorted(Entries(q), EventRecord(t, e)) + [Sentinel] + q.slots[q.numEntries + 2..],
                                    q.numEntries + 1, q.maxEntries)
  {
  }

  /** The array count-down: lower the time of each of the first `numEntries`
      slots by `k`. */
  method CountDown(q: Queue, k: int) returns (q': Queue)
    requires Valid(q)
    requires forall i :: 0 <= i < q.numEntries ==> q.slots[i].time - k < IntMax
    ensures q' == CountedDown(q, k)
  {
    var a := q.slots;
    var i := 0;
    while i < q.numEntries
      invariant 0 <= i <= q.numEntries
      invariant |a| == |q.slots|
      invariant forall j :: 0 <= j < i ==> a[j] == EventRecord(q.slots[j].time - k, q.slots[j].event)
      invariant a[i..] == q.slots[i..]
    {
      a := a[i := EventRecord(a[i].time - k, a[i].event)];
      i := i + 1;
    }
    assert a == Decremented(Entries(q), k) + q.slots[q.numEntries..];
    q' := Queue(a, q.numEntries, q.maxEntries);
  }

  /** The array pop: take the front event, then copy each slot from the
      second through the sentinel one place forward. */
  method Pop(q: Queue) returns (e: Event, q': Queue)
    requires Valid(q) && q.slots[0].time == 0
    ensures (e, q') == Popped(q)
  {
    var n := q.numEntries;
    e := q.slots[0].event;
    var a := q.slots;
    var i := 0;
    while i < n
      invariant 0 <= i <= n
      invariant |a| == |q.slots|
      invariant forall j :: 0 <= j < i ==> a[j] == q.slots[j + 1]
      invariant a[i..] == q.slots[i..]
    {
      a := a[i := a[i + 1]];
      i := i + 1;
    }
    assert a == q.slots[1..n + 1] + q.slots[n..];
    q' := Queue(a, n - 1, q.maxEntries);
  }

  /** Ties are stable: in a sorted queue, an existing record ends up in front
      of the inserted one exactly when its time is at most the new time, and
      the existing records keep their relative order around it. */
  lemma InsertPlacesAfterTies(s: seq<EventRecord>, r: EventRecord)
    requires Sorted(s)
    ensures var s' := InsertSorted(s, r);
      var p := SplitPoint(s, r.time);
      && s'[p] == r
      && s'[..p] == s[..p]
      && s'[p + 1..] == s[p..]
      && (forall i :: 0 <= i < |s| ==> (s[i].time <= r.time <==> i < p))
  {
    var p := SplitPoint(s, r.time);
    SplitPointSorted(s, r.time);
    assert InsertSorted(s, r) == s[..p] + [r] + s[p..];
    Spliced(s, p, r);
  }

  /** The parts of a sequence with `r` spliced in at position `p`. */
  lemma Spliced(s: seq<EventRecord>, p: nat, r: EventRecord)
    requires p <= |s|
    ensures var t := s[..p] + [r] + s[p..];
      t[p] == r && t[..p] == s[..p] && t[p + 1..] == s[p..]
  {
    var t := s[..p] + [r] + s[p..];
    assert t[..p] == s[..p];
    assert t[p + 1..] == s[p..];
  }

  /** A record inserted at the split point for its own time is the last
      record whose time is at most that time. */
  lemma SplitAfterTie(s: seq<EventRecord>, r: EventRecord)
    ensures var p := SplitPoint(s, r.time);
      SplitPoint(s[..p] + [r] + s[p..], r.time) == p + 1
  {
    var t, p := r.time, SplitPoint(s, r.time);
    var s1 := s[..p] + [r] + s[p..];
    assert forall j :: 0 <= j < p ==> s1[j] == s[j];
    if p + 1 < |s1| {
      assert s1[p + 1] == s[p];
    }
  }

  /** Splicing `r2` in just after `r1` puts the two side by side. */
  lemma SpliceTwice(a: seq<EventRecord>, b: seq<EventRecord>, r1: EventRecord, r2: EventRecord)
    ensures var s1 := a + [r1] + b;
      s1[..|a| + 1] + [r2] + s1[|a| + 1..] == a + [r1, r2] + b
  {
    var s1 := a + [r1] + b;
    assert s1[..|a| + 1] == a + [r1];
    assert s1[|a| + 1..] == b;
  }

  /** Two records added with the same time leave in the order they were
      added, side by side, just after every older record of that time. */
  lemma EqualTimesPopInInsertionOrder(s: seq<EventRecord>, t: int, e1: Event, e2: Event)
    ensures var p := SplitPoint(s, t);
      InsertSorted(InsertSorted(s, EventRecord(t, e1)), EventRecord(t, e2))
        == s[..p] + [EventRecord(t, e1), EventRecord(t, e2)] + s[p..]
  {
    var r1, r2 := EventRecord(t, e1), EventRecord(t, e2);
    var p := SplitPoint(s, t);
    var s1 := s[..p] + [r1] + s[p..];
    SplitAfterTie(s, r1);
    SpliceTwice(s[..p], s[p..], r1, r2);
    assert |s[..p]| == p;
  }
}

=== FILE: queue_shape.dfy ===
/** Counting facts about the records in a queue, used to bound how many
    records a player's queue can hold during a battle.

    Every "lands" record is added together with a later-firing record of
    the same action, so reading any suffix of a queue there are never more
    "lands" records than other records. That is `Balanced`, and with it a
    queue holds at most twice as many records as it holds non-"lands" ones.
 */
module QueueShape {
  import opened EventQueue

  predicate IsLands(e: Event) {
    e.PlayerLandsFastAttack? || e.PlayerLandsSpecialAttack? || e.PlayerLandsTransform?
  }

  /** The defender's steady attack cycle: a start and the finishes that
      lead to the next start. */
  predicate IsToken(e: Event) {
    e.PlayerStartsAttack? || e.PlayerFinishesFastAttack? || e.PlayerFinishesSpecialAttack?
  }

  /** The opening events only the defender's queue receives. */
  predicate IsOpener(e: Event) {
    e.PlayerStartsInitialAttack? || e.PlayerFinishesInitialFastAttack? || e.PlayerFinishesInitialSpecialAttack?
  }

  /** The kinds of record a player's queue is counted by: "lands" records,
      the defender's steady-state starts and finishes, long presses,
      sentinels and the defender's opening events. */
  datatype Tag = Lands | Token | LongPress | Null | Opener

  predicate HasTag(e: Event, tag: Tag) {
    match tag
    case Lands => IsLands(e)
    case Token => IsToken(e)
    case LongPress => e.PlayerFinishesLongPress?
    case Null => e.NullEvent?
    case Opener => IsOpener(e)
  }

  /** 1 when `e` carries `tag`, else 0. */
  function Mark(e: Event, tag: Tag): nat {
    if HasTag(e, tag) then 1 else 0
  }

  /** How many records of `s` carry `tag`. */
  function Count(s: seq<EventRecord>, tag: Tag): nat {
    if |s| == 0 then 0 else Mark(s[0].event, tag) + Count(s[1..], tag)
  }

  /** How many records of `s` are not "lands" records. */
  function OthersIn(s: seq<EventRecord>): int {
    |s| - Count(s, Lands)
  }

  /** Every suffix holds at least as many non-"lands" records as "lands"
      records. */
  predicate Balanced(s: seq<EventRecord>) {
    forall k :: 0 <= k <= |s| ==> BalancedFrom(s, k)
  }

  /** The suffix of `s` from `k` on holds at least as many non-"lands"
      records as "lands" records. */
  predicate BalancedFrom(s: seq<EventRecord>, k: int)
    requires 0 <= k <= |s|
  {
    2 * Count(s[k..], Lands) <= |s| - k
  }

  /** `s` with `r` inserted at position `p`. */
  function InsertAt(s: seq<EventRecord>, p: nat, r: EventRecord): seq<EventRecord>
    requires p <= |s|
  {
    s[..p] + [r] + s[p..]
  }

  lemma {:induction false} AppendCount(a: seq<EventRecord>, b: seq<EventRecord>, tag: Tag)
    ensures Count(a + b, tag) == Count(a, tag) + Count(b, tag)
  {
    if |a| == 0 {
      assert a + b == b;
    } else {
      assert (a + b)[1..] == a[1..] + b;
      AppendCount(a[1..], b, tag);
    }
  }

  lemma SingleCount(r: EventRecord, tag: Tag)
    ensures Count([r], tag) == Mark(r.event, tag)
  {
    assert [r][1..] == [];
  }

  lemma TripleCount(s: seq<EventRecord>, tag: Tag)
    requires |s| == 3
    ensures Count(s, tag) == Mark(s[0].event, tag) + Mark(s[1].event, tag) + Mark(s[2].event, tag)
  {
    var t := s[1..];
    assert t[0] == s[1] && t[1..][0] == s[2] && t[1..][1..] == [];
    assert Count(t[1..], tag) == Mark(s[2].event, tag);
  }

  /** Inserting a record anywhere adds exactly its own mark. */
  lemma {:induction false} InsertAtCount(s: seq<EventRecord>, p: nat, r: EventRecord, tag: Tag)
    requires p <= |s|
    ensures Count(InsertAt(s, p, r), tag) == Count(s, tag) + Mark(r.event, tag)
    decreases p
  {
    var t := InsertAt(s, p, r);
    if p == 0 {
      assert t == [r] + s;
      assert t[1..] == s;
    } else {
      assert t[0] == s[0];
      assert t[1..] == InsertAt(s[1..], p - 1, r);
      InsertAtCount(s[1..], p - 1, r, tag);
    }
  }

  /** The ordered insert adds exactly the inserted record's marks. */
  lemma InsertSortedCount(s: seq<EventRecord>, r: EventRecord)
    ensures forall tag :: Count(InsertSorted(s, r), tag) == Count(s, tag) + Mark(r.event, tag)
  {
    forall tag {
      InsertAtCount(s, SplitPoint(s, r.time), r, tag);
    }
  }

  /** Records with the same tags, in the same order, count the same. */
  lemma {:induction false} SameTagsCount(s: seq<EventRecord>, s': seq<EventRecord>, tag: Tag)
    requires |s| == |s'|
    requires forall i :: 0 <= i < |s| ==> s[i].event == s'[i].event
    ensures Count(s', tag) == Count(s, tag)
    decreases |s|
  {
    if |s| > 0 {
      SameTagsCount(s[1..], s'[1..], tag);
    }
  }

  /** A balanced queue holds no more than twice its non-"lands" records. */
  lemma BalancedBound(s: seq<EventRecord>)
    requires Balanced(s)
    ensures Count(s, Lands) <= OthersIn(s)
    ensures |s| <= 2 * OthersIn(s)
  {
    assert BalancedFrom(s, 0);
    assert s[0..] == s;
  }

  lemma BalancedTail(s: seq<EventRecord>)
    requires Balanced(s) && |s| > 0
    ensures Balanced(s[1..])
  {
    forall k | 0 <= k <= |s| - 1
      ensures BalancedFrom(s[1..], k)
    {
      assert BalancedFrom(s, k + 1);
      assert s[1..][k..] == s[k + 1..];
    }
  }

  lemma BalancedSameTags(s: seq<EventRecord>, s': seq<EventRecord>)
    requires Balanced(s)
    requires |s| == |s'|
    requires forall i :: 0 <= i < |s| ==> s[i].event == s'[i].event
    ensures Balanced(s')
  {
    forall k | 0 <= k <= |s'|
      ensures BalancedFrom(s', k)
    {
      assert BalancedFrom(s, k);
      SameTagsCount(s[k..], s'[k..], Lands);
    }
  }

  /** The suffixes of `s` with a record inserted at `p`. */
  lemma SuffixOfInsertAt(s: seq<EventRecord>, p: nat, r: EventRecord, k: nat)
    requires p <= |s| && k <= |s| + 1
    ensures k <= p ==> Count(InsertAt(s, p, r)[k..], Lands) == Count(s[k..], Lands) + Mark(r.event, Lands)
    ensures k > p ==> InsertAt(s, p, r)[k..] == s[k - 1..]
  {
    if k <= p {
      assert InsertAt(s, p, r)[k..] == InsertAt(s[k..], p - k, r);
      InsertAtCount(s[k..], p - k, r, Lands);
    }
  }

  /** Inserting a record that is not a "lands" record keeps a queue
      balanced. */
  lemma InsertOtherBalanced(s: seq<EventRecord>, r: EventRecord)
    requires Balanced(s) && !IsLands(r.event)
    ensures Balanced(InsertSorted(s, r))
  {
    var p := SplitPoint(s, r.time);
    var t := InsertSorted(s, r);
    assert t == InsertAt(s, p, r);
    forall k | 0 <= k <= |t|
      ensures BalancedFrom(t, k)
    {
      SuffixOfInsertAt(s, p, r, k);
      if k <= p {
        assert BalancedFrom(s, k);
      } else {
        assert BalancedFrom(s, k - 1);
      }
    }
  }

  /** Inserting a "lands" record together with a record that fires no
      earlier keeps a sorted queue balanced. */
  lemma InsertPairBalanced(s: seq<EventRecord>, l: EventRecord, f: EventRecord)
    requires Balanced(s)
    requires IsLands(l.event) && !IsLands(f.event) && l.time <= f.time
    ensures Balanced(InsertSorted(InsertSorted(s, l), f))
  {
    var p := SplitPoint(s, l.time);
    var s1 := InsertSorted(s, l);
    assert s1 == InsertAt(s, p, l);
    var q := SplitPoint(s1, f.time);
    var s2 := InsertSorted(s1, f);
    assert s2 == InsertAt(s1, q, f);
    SplitPastInserted(s, l, f.time);
    forall k | 0 <= k <= |s2|
      ensures BalancedFrom(s2, k)
    {
      PairSuffix(s, p, l, q, f, k);
    }
  }

  /** A time no earlier than an inserted record's splits after it. */
  lemma SplitPastInserted(s: seq<EventRecord>, l: EventRecord, t: int)
    requires l.time <= t
    ensures SplitPoint(InsertAt(s, SplitPoint(s, l.time), l), t) > SplitPoint(s, l.time)
  {
    var p := SplitPoint(s, l.time);
    var s1 := InsertAt(s, p, l);
    forall j | 0 <= j <= p
      ensures s1[j].time <= t
    {
      if j < p {
        assert s1[j] == s[j];
      } else {
        assert s1[j] == l;
      }
    }
  }

  /** One suffix of a queue after inserting a "lands" record at `p` and
      then a non-"lands" record at `q > p`. */
  lemma PairSuffix(s: seq<EventRecord>, p: nat, l: EventRecord, q: nat, f: EventRecord, k: nat)
    requires Balanced(s) && p <= |s| && p < q <= |s| + 1
    requires IsLands(l.event) && !IsLands(f.event)
    requires k <= |s| + 2
    ensures BalancedFrom(InsertAt(InsertAt(s, p, l), q, f), k)
  {
    var s1 := InsertAt(s, p, l);
    SuffixOfInsertAt(s1, q, f, k);
    if k <= p {
      SuffixOfInsertAt(s, p, l, k);
      assert BalancedFrom(s, k);
    } else if k <= q {
      SuffixOfInsertAt(s, p, l, k);
      assert BalancedFrom(s, k - 1);
    } else {
      SuffixOfInsertAt(s, p, l, k - 1);
      assert BalancedFrom(s, k - 2);
    }
  }
}

=== FILE: sudoku.dfy ===
/** The board of the Sudoku solver and its validity check.

    A board is a 9 x 9 grid of one-character cells: the blank `' '` or a
    value. The candidate functions start from the nine digits and remove
    every non-blank value of a row, a column or a 3 x 3 block in turn; a
    removal that finds its value absent (a repeated value, or a value that
    is no digit) raises `KeyError`, modelled as `None`.
 */
module Sudoku {

  type Board = seq<seq<char>>

  const Blank: char := ' '

  const Digits: set<char> := {'1', '2', '3', '4', '5', '6', '7', '8', '9'}

  datatype Option<T> = None | Some(value: T)

  /** A 9 x 9 grid. */
  predicate IsBoard(b: Board) {
    |b| == 9 && forall r :: 0 <= r < 9 ==> |b[r]| == 9
  }

  // ----- the candidate sets -----

  /** `num_set.remove(v)` for every non-blank `v` of `cells`, front to
      back: `None` as soon as a removal finds its value absent. */
  function RemoveAll(s: set<char>, cells: seq<char>): (r: Option<set<char>>)
    decreases |cells|
  {
    if |cells| == 0 then Some(s)
    else if cells[0] == Blank then RemoveAll(s, cells[1..])
    else if cells[0] in s then RemoveAll(s - {cells[0]}, cells[1..])
    else None
  }

  /** The non-blank values of `cells`. */
  function Filled(cells: seq<char>): set<char> {
    set i | 0 <= i < |cells| && cells[i] != Blank :: cells[i]
  }

  /** No non-blank value occurs twice in `cells`. */
  predicate Distinct(cells: seq<char>) {
    forall i, j :: 0 <= i < j < |cells| && cells[i] != Blank ==> cells[i] != cells[j]
  }

  /** A row, column or block the candidate functions accept: no repeated
      value, and every value a digit. */
  predicate Legal(cells: seq<char>) {
    Distinct(cells) && Filled(cells) <= Digits
  }

  lemma FilledFront(cells: seq<char>)
    requires |cells| > 0
    ensures cells[0] == Blank ==> Filled(cells) == Filled(cells[1..])
    ensures cells[0] != Blank ==> Filled(cells) == {cells[0]} + Filled(cells[1..])
  {
    var t := cells[1..];
    forall x | x in Filled(cells)
      ensures (x == cells[0] && cells[0] != Blank) || x in Filled(t)
    {
      var i :| 0 <= i < |cells| && cells[i] != Blank && cells[i] == x;
      if i > 0 {
        assert t[i - 1] == x;
      }
    }
    forall x | x in Filled(t)
      ensures x in Filled(cells)
    {
      var i :| 0 <= i < |t| && t[i] != Blank && t[i] == x;
      assert cells[i + 1] == x;
    }
  }

  lemma DistinctFront(cells: seq<char>)
    requires |cells| > 0
    ensures cells[0] == Blank ==> (Distinct(cells) <==> Distinct(cells[1..]))
    ensures cells[0] != Blank ==> (Distinct(cells) <==> Distinct(cells[1..]) && cells[0] !in Filled(cells[1..]))
  {
    var t := cells[1..];
    if Distinct(t) && (cells[0] != Blank ==> cells[0] !in Filled(t)) {
      forall i, j | 0 <= i < j < |cells| && cells[i] != Blank
        ensures cells[i] != cells[j]
      {
        if i == 0 {
          assert t[j - 1] == cells[j];
        } else {
          assert t[i - 1] == cells[i] && t[j - 1] == cells[j];
        }
      }
    }
    if Distinct(cells) {
      forall i, j | 0 <= i < j < |t| && t[i] != Blank
        ensures t[i] != t[j]
      {
        assert cells[i + 1] == t[i] && cells[j + 1] == t[j];
      }
      if cells[0] != Blank {
        forall j | 0 <= j < |t| && t[j] != Blank
          ensures t[j] != cells[0]
        {
          assert cells[j + 1] == t[j];
        }
      }
    }
  }

  /** The removals succeed exactly when the values are distinct members of
      `s`, and then leave `s` without them. */
  lemma {:induction false} RemoveAllSpec(s: set<char>, cells: seq<char>)
    ensures RemoveAll(s, cells).Some? <==> Distinct(cells) && Filled(cells) <= s
    ensures RemoveAll(s, cells).Some? ==> RemoveAll(s, cells).value == s - Filled(cells)
    decreases |cells|
  {
    if |cells| > 0 {
      var x, t := cells[0], cells[1..];
      FilledFront(cells);
      DistinctFront(cells);
      if x == Blank {
        RemoveAllSpec(s, t);
      } else if x in s {
        RemoveAllSpec(s - {x}, t);
      }
    }
  }

  /** Writing a digit the cells lack into a blank keeps them legal. */
  lemma PlaceLegal(cells: seq<char>, k: int, v: char)
    requires Legal(cells) && 0 <= k < |cells| && cells[k] == Blank
    requires v in Digits && v !in Filled(cells)
    ensures Legal(cells[k := v])
  {
    var t := cells[k := v];
    forall x | x in Filled(t)
      ensures x in Digits
    {
      var i :| 0 <= i < |t| && t[i] != Blank && t[i] == x;
      if i != k {
        assert cells[i] == x;
      }
    }
    forall i, j | 0 <= i < j < |t| && t[i] != Blank
      ensures t[i] != t[j]
    {
      if i == k && cells[j] != Blank {
        assert cells[j] in Filled(cells);
      } else if j == k {
        assert cells[i] in Filled(cells);
      }
    }
  }

  /** A legal, blank-free completion `full` of the cells `part` holds, at a
      cell `part` leaves blank, a digit `part` lacks. */
  lemma MissingValue(part: seq<char>, full: seq<char>, k: int)
    requires |part| == |full| && Legal(full) && 0 <= k < |full|
    requires part[k] == Blank && full[k] != Blank
    requires forall i :: 0 <= i < |part| && part[i] != Blank ==> part[i] == full[i]
    ensures full[k] in Digits && full[k] !in Filled(part)
  {
    assert full[k] in Filled(full);
  }

  /** The cells of row `row`, left to right. */
  function RowCells(b: Board, row: int): seq<char>
    requires IsBoard(b) && 0 <= row < 9
  {
    b[row]
  }

  /** The cells of column `col`, top to bottom. */
  function ColumnCells(b: Board, col: int): seq<char>
    requires IsBoard(b) && 0 <= col < 9
  {
    seq(9, i requires 0 <= i < 9 => b[i][col])
  }

  /** The cells of the 3 x 3 block whose top-left corner is `(r0, c0)`,
      row by row. */
  function BlockCells(b: Board, r0: int, c0: int): seq<char>
    requires IsBoard(b) && 0 <= r0 <= 6 && 0 <= c0 <= 6
  {
    [b[r0][c0], b[r0][c0 + 1], b[r0][c0 + 2],
     b[r0 + 1][c0], b[r0 + 1][c0 + 1], b[r0 + 1][c0 + 2],
     b[r0 + 2][c0], b[r0 + 2][c0 + 1], b[r0 + 2][c0 + 2]]
  }

  /** Cell `(r0 + i, c0 + j)` is at position `3 * i + j` of its block. */
  lemma BlockCellAt(b: Board, r0: int, c0: int, i: int, j: int)
    requires IsBoard(b) && 0 <= r0 <= 6 && 0 <= c0 <= 6 && 0 <= i < 3 && 0 <= j < 3
    ensures |BlockCells(b, r0, c0)| == 9
    ensures BlockCells(b, r0, c0)[3 * i + j] == b[r0 + i][c0 + j]
  {
  }

  /** A coordinate where a block starts. */
  predicate IsCorner(x: int) {
    x == 0 || x == 3 || x == 6
  }

  /** The top-left corner coordinate of the block holding coordinate `x`. */
  function Corner(x: int): (x0: int)
    requires 0 <= x < 9
    ensures x0 % 3 == 0 && x0 <= x < x0 + 3 && 0 <= x0 <= 6
    ensures x % 3 == 0 ==> x0 == x
    ensures IsCorner(x0)
  {
    x - x % 3
  }

  /** `find_row_nums`: the digits row `row` still lacks. */
  function FindRowNums(b: Board, row: int): (o: Option<set<char>>)
    requires IsBoard(b) && 0 <= row < 9
    ensures o.Some? <==> Legal(RowCells(b, row))
    ensures o.Some? ==> o.value == Digits - Filled(RowCells(b, row))
  {
    RemoveAllSpec(Digits, RowCells(b, row));
    RemoveAll(Digits, RowCells(b, row))
  }

  /** `find_col_nums`: the digits column `col` still lacks. */
  function FindColNums(b: Board, col: int): (o: Option<set<char>>)
    requires IsBoard(b) && 0 <= col < 9
    ensures o.Some? <==> Legal(ColumnCells(b, col))
    ensures o.Some? ==> o.value == Digits - Filled(ColumnCells(b, col))
  {
    RemoveAllSpec(Digits, ColumnCells(b, col));
    RemoveAll(Digits, ColumnCells(b, col))
  }

  /** `find_subboard_nums`: the digits the block holding `(row, col)`
      still lacks. */
  function FindBlockNums(b: Board, row: int, col: int): (o: Option<set<char>>)
    requires IsBoard(b) && 0 <= row < 9 && 0 <= col < 9
    ensures o.Some? <==> Legal(BlockCells(b, Corner(row), Corner(col)))
    ensures o.Some? ==> o.value == Digits - Filled(BlockCells(b, Corner(row), Corner(col)))
  {
    RemoveAllSpec(Digits, BlockCells(b, Corner(row), Corner(col)));
    RemoveAll(Digits, BlockCells(b, Corner(row), Corner(col)))
  }

  /** The values on the board in the block with corner `(r0, c0)`. */
  function BlockValues(b: Board, r0: int, c0: int): set<char>
    requires IsBoard(b) && 0 <= r0 <= 6 && 0 <= c0 <= 6
  {
    set i, j | r0 <= i < r0 + 3 && c0 <= j < c0 + 3 && b[i][j] != Blank :: b[i][j]
  }

  /** The block candidates come from exactly the nine cells of the block,
      so every cell of one block gets the same answer. */
  lemma FindBlockNumsInspectsBlock(b: Board, row: int, col: int, row': int, col': int)
    requires IsBoard(b) && 0 <= row < 9 && 0 <= col < 9 && 0 <= row' < 9 && 0 <= col' < 9
    requires row / 3 == row' / 3 && col / 3 == col' / 3
    ensures FindBlockNums(b, row, col) == FindBlockNums(b, row', col')
    ensures FindBlockNums(b, row, col).Some? ==>
              FindBlockNums(b, row, col).value == Digits - BlockValues(b, Corner(row), Corner(col))
  {
    var r0, c0 := Corner(row), Corner(col);
    var cells := BlockCells(b, r0, c0);
    forall x | x in Filled(cells)
      ensures x in BlockValues(b, r0, c0)
    {
      var k :| 0 <= k < |cells| && cells[k] != Blank && cells[k] == x;
      BlockCellAt(b, r0, c0, k / 3, k % 3);
    }
    forall x | x in BlockValues(b, r0, c0)
      ensures x in Filled(cells)
    {
      var i, j :| r0 <= i < r0 + 3 && c0 <= j < c0 + 3 && b[i][j] != Blank && b[i][j] == x;
      BlockCellAt(b, r0, c0, i - r0, j - c0);
    }
  }

  // ----- check_board -----

  /** Every row, every column and every block is legal. */
  predicate ValidBoard(b: Board)
    requires IsBoard(b)
  {
    && (forall i :: 0 <= i < 9 ==> Legal(RowCells(b, i)))
    && (forall i :: 0 <= i < 9 ==> Legal(ColumnCells(b, i)))
    && (forall r0, c0 :: 0 <= r0 < 9 && 0 <= c0 < 9 && IsCorner(r0) && IsCorner(c0) ==> Legal(BlockCells(b, r0, c0)))
  }

  /** Which unit `check_board` reports: a row or a column (numbered from
      0, the message adds one), or the block with the given corner. */
  datatype Complaint = BadRow(row: int) | BadColumn(col: int) | BadBlock(r0: int, c0: int)

  /** `check_board`: rows and columns in one pass, then the nine blocks
      row by row; the first unit whose candidate set raises is reported.
      `None` stands for `True`. */
  method CheckBoard(b: Board) returns (verdict: Option<Complaint>)
    requires IsBoard(b)
    ensures verdict.None? <==> ValidBoard(b)
    ensures verdict.Some? && verdict.value.BadRow? ==>
              var i := verdict.value.row;
              && 0 <= i < 9 && !Legal(RowCells(b, i))
              && forall k :: 0 <= k < i ==> Legal(RowCells(b, k)) && Legal(ColumnCells(b, k))
    ensures verdict.Some? && verdict.value.BadColumn? ==>
              var i := verdict.value.col;
              && 0 <= i < 9 && !Legal(ColumnCells(b, i)) && Legal(RowCells(b, i))
              && forall k :: 0 <= k < i ==> Legal(RowCells(b, k)) && Legal(ColumnCells(b, k))
    ensures verdict.Some? && verdict.value.BadBlock? ==>
              var (r0, c0) := (verdict.value.r0, verdict.value.c0);
              && IsCorner(r0) && IsCorner(c0) && !Legal(BlockCells(b, r0, c0))
              && (forall k :: 0 <= k < 9 ==> Legal(RowCells(b, k)) && Legal(ColumnCells(b, k)))
              && forall r, c :: IsCorner(r) && IsCorner(c) && (r < r0 || (r == r0 && c < c0)) ==>
                   Legal(BlockCells(b, r, c))
  {
    hide Legal, RemoveAll;
    var i := 0;
    while i < 9
      invariant 0 <= i <= 9
      invariant forall k :: 0 <= k < i ==> Legal(RowCells(b, k)) && Legal(ColumnCells(b, k))
    {
      if FindRowNums(b, i).None? {
        return Some(BadRow(i));
      }
      if FindColNums(b, i).None? {
        return Some(BadColumn(i));
      }
      i := i + 1;
    }
    var r0 := 0;
    while r0 < 9
      invariant 0 <= r0 <= 9 && r0 % 3 == 0
      invariant forall r, c :: IsCorner(r) && IsCorner(c) && r < r0 ==> Legal(BlockCells(b, r, c))
    {
      var c0 := 0;
      while c0 < 9
        invariant 0 <= c0 <= 9 && c0 % 3 == 0
        invariant forall r, c :: IsCorner(r) && IsCorner(c) && r < r0 ==> Legal(BlockCells(b, r, c))
        invariant forall c :: IsCorner(c) && c < c0 ==> Legal(BlockCells(b, r0, c))
      {
        assert Corner(r0) == r0 && Corner(c0) == c0;
        if FindBlockNums(b, r0, c0).None? {
          return Some(BadBlock(r0, c0));
        }
        c0 := c0 + 3;
      }
      r0 := r0 + 3;
    }
    return None;
  }

  // ----- get_next_cell -----

  /** The row-major position of a cell. */
  function Index(row: int, col: int): int {
    9 * row + col
  }

  /** `get_next_cell`: the next cell in row-major order; the cell after
      the last is `(9, 0)`. */
  function NextCell(row: int, col: int): (next: (int, int))
    ensures 0 <= col <= 8 ==> Index(next.0, next.1) == Index(row, col) + 1 && 0 <= next.1 <= 8
    ensures next.0 == row || next.0 == row + 1
  {
    if col == 8 then (row + 1, 0) else (row, col + 1)
  }

}

=== FILE: sudoku_solver.dfy ===
/** The backtracking search of the Sudoku solver.

    `solve_sudoku` mutates its board: it writes each candidate into the
    first blank cell, recurses, and on failure writes the blank back. Here
    the board is threaded through the calls instead, and every call returns
    the board as the caller would find it afterwards, together with how the
    call ended: `True`, `False`, or an escaping `KeyError`.

    The candidates at a cell form a Python set whose iteration order the
    language leaves open: it may depend on how the set was built, not only
    on its members. The set is built afresh from the board the call sees,
    so the order is a parameter `pick` that, given that board and the set,
    lists the set's members in some order.
 */
module SudokuSolver {
  import opened Sudoku

  // ----- boards -----

  /** `b` with cell `(row, col)` set to `v`. */
  function Place(b: Board, row: int, col: int, v: char): (b': Board)
    requires IsBoard(b) && 0 <= row < 9 && 0 <= col < 9
    ensures IsBoard(b') && b'[row][col] == v
    ensures forall i, j :: 0 <= i < 9 && 0 <= j < 9 && (i != row || j != col) ==> b'[i][j] == b[i][j]
  {
    b[row := b[row][col := v]]
  }

  /** The second write to a cell overrides the first. */
  lemma PlaceTwice(b: Board, row: int, col: int, u: char, v: char)
    requires IsBoard(b) && 0 <= row < 9 && 0 <= col < 9
    ensures Place(Place(b, row, col, u), row, col, v) == Place(b, row, col, v)
  {
    assert Place(b, row, col, u)[row][col := v] == b[row][col := v];
  }

  /** Writing a cell's own value back changes nothing. */
  lemma PlaceBlankSame(b: Board, row: int, col: int)
    requires IsBoard(b) && 0 <= row < 9 && 0 <= col < 9 && b[row][col] == Blank
    ensures Place(b, row, col, Blank) == b
  {
    assert b[row][col := Blank] == b[row];
  }

  /** Whatever keeps the values of a board with `(row, col)` written keeps
      those of the board with `(row, col)` blank. */
  lemma KeepsCleared(b: Board, row: int, col: int, v: char, b': Board)
    requires IsBoard(b) && IsBoard(b') && 0 <= row < 9 && 0 <= col < 9
    requires Keeps(Place(b, row, col, v), b')
    ensures Keeps(Place(b, row, col, Blank), b')
  {
  }

  /** No cell is blank. */
  predicate NoBlanks(b: Board)
    requires IsBoard(b)
  {
    forall i, j :: 0 <= i < 9 && 0 <= j < 9 ==> b[i][j] != Blank
  }

  /** `b'` keeps every value `b` holds. */
  predicate Keeps(b: Board, b': Board)
    requires IsBoard(b) && IsBoard(b')
  {
    forall i, j :: 0 <= i < 9 && 0 <= j < 9 && b[i][j] != Blank ==> b'[i][j] == b[i][j]
  }

  /** `s` solves `b`: a blank-free valid board keeping all of `b`'s values. */
  predicate Completes(b: Board, s: Board)
    requires IsBoard(b) && IsBoard(s)
  {
    NoBlanks(s) && ValidBoard(s) && Keeps(b, s)
  }

  /** The blanks of a row. */
  function RowBlanks(row: seq<char>): nat {
    if |row| == 0 then 0 else (if row[0] == Blank then 1 else 0) + RowBlanks(row[1..])
  }

  /** The blanks of a board: the measure that bounds the search. */
  function Blanks(b: Board): nat {
    if |b| == 0 then 0 else RowBlanks(b[0]) + Blanks(b[1..])
  }

  lemma {:induction false} RowBlanksFill(row: seq<char>, col: int, v: char)
    requires 0 <= col < |row| && row[col] == Blank && v != Blank
    ensures RowBlanks(row[col := v]) + 1 == RowBlanks(row)
    decreases col
  {
    var row' := row[col := v];
    if col > 0 {
      assert row'[1..] == row[1..][col - 1 := v];
      RowBlanksFill(row[1..], col - 1, v);
    } else {
      assert row'[1..] == row[1..];
    }
  }

  lemma {:induction false} BlanksUpdate(b: Board, r: int, row: seq<char>)
    requires 0 <= r < |b|
    ensures Blanks(b[r := row]) + RowBlanks(b[r]) == Blanks(b) + RowBlanks(row)
    decreases r
  {
    var b' := b[r := row];
    if r > 0 {
      assert b'[1..] == b[1..][r - 1 := row];
      BlanksUpdate(b[1..], r - 1, row);
    } else {
      assert b'[1..] == b[1..];
    }
  }

  /** Filling a blank cell removes exactly one blank. */
  lemma PlaceFills(b: Board, row: int, col: int, v: char)
    requires IsBoard(b) && 0 <= row < 9 && 0 <= col < 9 && b[row][col] == Blank && v != Blank
    ensures Blanks(Place(b, row, col, v)) + 1 == Blanks(b)
  {
    RowBlanksFill(b[row], col, v);
    BlanksUpdate(b, row, b[row][col := v]);
  }

  // ----- the scan for the first blank -----

  /** The scan loop of `solve_sudoku` from `(row, col)`: the first blank
      cell in row-major order, or row 9 when every cell from `(row, col)`
      on is filled. */
  function Scan(b: Board, row: int, col: int): (p: (int, int))
    requires IsBoard(b) && 0 <= row < 9 && 0 <= col < 9
    ensures p.0 == 9 || (0 <= p.0 < 9 && 0 <= p.1 < 9 && b[p.0][p.1] == Blank && Index(row, col) <= Index(p.0, p.1))
    decreases 81 - Index(row, col)
  {
    if b[row][col] == Blank then (row, col)
    else
      var next := NextCell(row, col);
      if next.0 == 9 then next else Scan(b, next.0, next.1)
  }

  /** The scan from the top-left cell finds no blank exactly when the board
      has none, and otherwise stops at the first one. */
  lemma FirstBlank(b: Board)
    requires IsBoard(b)
    ensures Scan(b, 0, 0).0 == 9 <==> NoBlanks(b)
    ensures Scan(b, 0, 0).0 < 9 ==> b[Scan(b, 0, 0).0][Scan(b, 0, 0).1] == Blank
  {
    var p := Scan(b, 0, 0);
    if p.0 == 9 {
      forall i, j | 0 <= i < 9 && 0 <= j < 9
        ensures b[i][j] != Blank
      {
        ScanSkipsFilled(b, 0, 0, i, j);
      }
    }
  }

  /** Every cell from `(row, col)` up to where the scan stops, or to the
      end of the board when it finds no blank, is filled. */
  lemma {:induction false} ScanSkipsFilled(b: Board, row: int, col: int, i: int, j: int)
    requires IsBoard(b) && 0 <= row < 9 && 0 <= col < 9 && 0 <= i < 9 && 0 <= j < 9
    requires Index(row, col) <= Index(i, j)
    requires Scan(b, row, col).0 == 9 || Index(i, j) < Index(Scan(b, row, col).0, Scan(b, row, col).1)
    ensures b[i][j] != Blank
    decreases 81 - Index(row, col)
  {
    if Index(i, j) == Index(row, col) {
      assert i == row && j == col;
    } else {
      var next := NextCell(row, col);
      if next.0 < 9 {
        ScanSkipsFilled(b, next.0, next.1, i, j);
      }
    }
  }

  // ----- candidates -----

  /** `v` may go into cell `(row, col)`: a digit its row, column and block
      lack. */
  predicate Fits(b: Board, row: int, col: int, v: char)
    requires IsBoard(b) && 0 <= row < 9 && 0 <= col < 9
  {
    && v in Digits
    && v !in Filled(RowCells(b, row))
    && v !in Filled(ColumnCells(b, col))
    && v !in Filled(BlockCells(b, Corner(row), Corner(col)))
  }

  /** `possible_nums`: the intersection of the row, column and block
      candidate sets, or `None` when one of them raises. */
  function Candidates(b: Board, row: int, col: int): (o: Option<set<char>>)
    requires IsBoard(b) && 0 <= row < 9 && 0 <= col < 9
    ensures o.Some? <==> Legal(RowCells(b, row)) && Legal(ColumnCells(b, col)) &&
                         Legal(BlockCells(b, Corner(row), Corner(col)))
    ensures o.Some? ==> forall v :: v in o.value <==> Fits(b, row, col, v)
  {
    match FindRowNums(b, row)
    case None => None
    case Some(rowNums) =>
      match FindColNums(b, col)
      case None => None
      case Some(colNums) =>
        match FindBlockNums(b, row, col)
        case None => None
        case Some(blockNums) => Some(rowNums * colNums * blockNums)
  }

  /** `xs` lists exactly the members of `s`. */
  predicate Enumerates(xs: seq<char>, s: set<char>) {
    forall v :: v in xs <==> v in s
  }

  /** An iteration order for the candidate sets: the order in which the
      set `s`, built from board `b`, yields its members. */
  type Order = (Board, set<char>) -> seq<char>

  /** `pick` lists exactly the members of every set. */
  ghost predicate Lists(pick: Order) {
    forall b: Board, s: set<char> :: Enumerates(pick(b, s), s)
  }

  /** Every value the search tries at a cell fits there. */
  lemma PickedFit(b: Board, row: int, col: int, pick: Order)
    requires IsBoard(b) && 0 <= row < 9 && 0 <= col < 9 && Lists(pick)
    requires Candidates(b, row, col).Some?
    ensures var nums := pick(b, Candidates(b, row, col).value);
      forall i :: 0 <= i < |nums| ==> nums[i] != Blank && Fits(b, row, col, nums[i])
  {
    var cands := Candidates(b, row, col).value;
    var nums := pick(b, cands);
    assert Enumerates(nums, cands);
    forall i | 0 <= i < |nums|
      ensures nums[i] != Blank && Fits(b, row, col, nums[i])
    {
      assert nums[i] in cands;
    }
  }

  // ----- the search -----

  /** How a call of `solve_sudoku` ends. */
  datatype Status = Solved | Unsolvable | KeyError

  /** The end of a call and the board it leaves. */
  datatype Search = Search(status: Status, board: Board)

  /** `solve_sudoku`: find the first blank; with none, succeed; otherwise
      try the candidates there in `pick` order. */
  function Solve(b: Board, pick: Order): (res: Search)
    requires IsBoard(b) && Lists(pick)
    ensures IsBoard(res.board) && Keeps(b, res.board)
    ensures res.status == Unsolvable ==> res.board == b
    ensures res.status == Solved ==> NoBlanks(res.board)
    decreases Blanks(b), 1, 0
  {
    var (row, col) := Scan(b, 0, 0);
    if row == 9 then
      FirstBlank(b);
      Search(Solved, b)
    else
      match Candidates(b, row, col)
      case None => Search(KeyError, b)
      case Some(nums) =>
        PlaceBlankSame(b, row, col);
        PickedFit(b, row, col, pick);
        TryEach(b, row, col, pick(b, nums), pick)
  }

  /** The loop over the candidates at `(row, col)`: write one, recurse,
      stop on success or on an escaping `KeyError`, else go on with the
      board the failed call left; after the last, write the blank back. */
  function TryEach(b: Board, row: int, col: int, nums: seq<char>, pick: Order): (res: Search)
    requires IsBoard(b) && 0 <= row < 9 && 0 <= col < 9 && Lists(pick)
    requires forall i :: 0 <= i < |nums| ==> nums[i] != Blank
    ensures IsBoard(res.board) && Keeps(Place(b, row, col, Blank), res.board)
    ensures res.status == Unsolvable ==> res.board == Place(b, row, col, Blank)
    ensures res.status == Solved ==> NoBlanks(res.board)
    decreases Blanks(Place(b, row, col, Blank)), 0, |nums|
  {
    var cleared := Place(b, row, col, Blank);
    if |nums| == 0 then
      Search(Unsolvable, cleared)
    else
      var tried := Place(b, row, col, nums[0]);
      PlaceTwice(b, row, col, Blank, nums[0]);
      PlaceFills(cleared, row, col, nums[0]);
      var res := Solve(tried, pick);
      KeepsCleared(b, row, col, nums[0], res.board);
      if res.status == Unsolvable then
        PlaceTwice(b, row, col, nums[0], Blank);
        TryEach(res.board, row, col, nums[1..], pick)
      else
        res
  }

  // ----- validity -----

  /** The block with corner `(r0, c0)` after a write to `(row, col)`: one
      cell changed if the block holds `(row, col)`, none otherwise. */
  lemma BlockAfterPlace(b: Board, row: int, col: int, v: char, r0: int, c0: int)
    requires IsBoard(b) && 0 <= row < 9 && 0 <= col < 9 && IsCorner(r0) && IsCorner(c0)
    ensures var k := 3 * (row - r0) + (col - c0);
      r0 <= row < r0 + 3 && c0 <= col < c0 + 3 ==>
        BlockCells(b, r0, c0)[k] == b[row][col] &&
        BlockCells(Place(b, row, col, v), r0, c0) == BlockCells(b, r0, c0)[k := v]
    ensures !(r0 <= row < r0 + 3 && c0 <= col < c0 + 3) ==>
              BlockCells(Place(b, row, col, v), r0, c0) == BlockCells(b, r0, c0)
  {
    if r0 <= row < r0 + 3 && c0 <= col < c0 + 3 {
      BlockAfterPlaceInside(b, row, col, v, r0, c0);
    } else {
      BlockAfterPlaceOutside(b, row, col, v, r0, c0);
    }
  }

  lemma BlockAfterPlaceInside(b: Board, row: int, col: int, v: char, r0: int, c0: int)
    requires IsBoard(b) && IsCorner(r0) && IsCorner(c0)
    requires r0 <= row < r0 + 3 && c0 <= col < c0 + 3
    ensures var k := 3 * (row - r0) + (col - c0);
      BlockCells(b, r0, c0)[k] == b[row][col] &&
      BlockCells(Place(b, row, col, v), r0, c0) == BlockCells(b, r0, c0)[k := v]
  {
  }

  lemma BlockAfterPlaceOutside(b: Board, row: int, col: int, v: char, r0: int, c0: int)
    requires IsBoard(b) && 0 <= row < 9 && 0 <= col < 9 && IsCorner(r0) && IsCorner(c0)
    requires !(r0 <= row < r0 + 3 && c0 <= col < c0 + 3)
    ensures BlockCells(Place(b, row, col, v), r0, c0) == BlockCells(b, r0, c0)
  {
  }

  /** Writing a fitting digit into a blank cell keeps a valid board
      valid. */
  lemma PlaceValid(b: Board, row: int, col: int, v: char)
    requires IsBoard(b) && 0 <= row < 9 && 0 <= col < 9 && ValidBoard(b)
    requires b[row][col] == Blank && Fits(b, row, col, v)
    ensures ValidBoard(Place(b, row, col, v))
  {
    var b' := Place(b, row, col, v);
    forall i | 0 <= i < 9
      ensures Legal(RowCells(b', i))
    {
      if i == row {
        PlaceLegal(RowCells(b, i), col, v);
      } else {
        assert RowCells(b', i) == RowCells(b, i);
      }
    }
    forall j | 0 <= j < 9
      ensures Legal(ColumnCells(b', j))
    {
      if j == col {
        assert ColumnCells(b', j) == ColumnCells(b, j)[row := v];
        PlaceLegal(ColumnCells(b, j), row, v);
      } else {
        assert ColumnCells(b', j) == ColumnCells(b, j);
      }
    }
    forall r0, c0 | 0 <= r0 < 9 && 0 <= c0 < 9 && IsCorner(r0) && IsCorner(c0)
      ensures Legal(BlockCells(b', r0, c0))
    {
      BlockAfterPlace(b, row, col, v, r0, c0);
      if r0 <= row < r0 + 3 && c0 <= col < c0 + 3 {
        assert r0 == Corner(row) && c0 == Corner(col);
        PlaceLegal(BlockCells(b, r0, c0), 3 * (row - r0) + (col - c0), v);
      }
    }
  }

  /** One unfolding of `Solve`: a board without blanks is solved as it
      stands; otherwise the search tries the candidates of the first blank
      in the order `pick` gives them. */
  lemma SolveStep(b: Board, pick: Order)
    requires IsBoard(b) && Lists(pick)
    ensures Scan(b, 0, 0).0 == 9 ==> Solve(b, pick) == Search(Solved, b)
    ensures Scan(b, 0, 0).0 < 9 && Candidates(b, Scan(b, 0, 0).0, Scan(b, 0, 0).1).None? ==>
              Solve(b, pick) == Search(KeyError, b)
    ensures var (row, col) := Scan(b, 0, 0);
            row < 9 && Candidates(b, row, col).Some? ==>
              var nums := pick(b, Candidates(b, row, col).value);
              (forall i :: 0 <= i < |nums| ==> nums[i] != Blank) &&
              Solve(b, pick) == TryEach(b, row, col, nums, pick)
  {
    var (row, col) := Scan(b, 0, 0);
    if row < 9 && Candidates(b, row, col).Some? {
      PickedFit(b, row, col, pick);
    }
  }

  /** From a valid board no `KeyError` escapes, and a solved board is
      valid. */
  lemma {:induction false} SolveValid(b: Board, pick: Order)
    requires IsBoard(b) && Lists(pick) && ValidBoard(b)
    ensures Solve(b, pick).status != KeyError
    ensures Solve(b, pick).status == Solved ==> ValidBoard(Solve(b, pick).board)
    decreases Blanks(b), 1, 0
  {
    hide Solve, TryEach;
    var (row, col) := Scan(b, 0, 0);
    SolveStep(b, pick);
    if row < 9 {
      FirstBlank(b);
      assert Candidates(b, row, col).Some?;
      var nums := pick(b, Candidates(b, row, col).value);
      PickedFit(b, row, col, pick);
      PlaceBlankSame(b, row, col);
      TryEachValid(b, row, col, nums, pick);
    }
  }

  lemma {:induction false} TryEachValid(b: Board, row: int, col: int, nums: seq<char>, pick: Order)
    requires IsBoard(b) && 0 <= row < 9 && 0 <= col < 9 && Lists(pick)
    requires ValidBoard(Place(b, row, col, Blank))
    requires forall i :: 0 <= i < |nums| ==> nums[i] != Blank && Fits(Place(b, row, col, Blank), row, col, nums[i])
    ensures TryEach(b, row, col, nums, pick).status != KeyError
    ensures TryEach(b, row, col, nums, pick).status == Solved ==> ValidBoard(TryEach(b, row, col, nums, pick).board)
    decreases Blanks(Place(b, row, col, Blank)), 0, |nums|
  {
    hide Solve, Candidates, Scan;
    if |nums| > 0 {
      var cleared := Place(b, row, col, Blank);
      var tried := Place(b, row, col, nums[0]);
      PlaceTwice(b, row, col, Blank, nums[0]);
      PlaceFills(cleared, row, col, nums[0]);
      PlaceValid(cleared, row, col, nums[0]);
      SolveValid(tried, pick);
      var res := Solve(tried, pick);
      if res.status == Unsolvable {
        PlaceTwice(b, row, col, nums[0], Blank);
        TryEachValid(res.board, row, col, nums[1..], pick);
      }
    }
  }

  // ----- completeness -----

  /** The value a solution holds at a blank cell fits there. */
  lemma SolutionFits(b: Board, row: int, col: int, s: Board)
    requires IsBoard(b) && IsBoard(s) && 0 <= row < 9 && 0 <= col < 9
    requires b[row][col] == Blank && Completes(b, s)
    ensures Fits(b, row, col, s[row][col])
  {
    MissingValue(RowCells(b, row), RowCells(s, row), col);
    MissingValue(ColumnCells(b, col), ColumnCells(s, col), row);
    var r0, c0 := Corner(row), Corner(col);
    var part, full := BlockCells(b, r0, c0), BlockCells(s, r0, c0);
    forall k | 0 <= k < 9 && part[k] != Blank
      ensures part[k] == full[k]
    {
      BlockCellAt(b, r0, c0, k / 3, k % 3);
      BlockCellAt(s, r0, c0, k / 3, k % 3);
    }
    BlockCellAt(b, r0, c0, row - r0, col - c0);
    BlockCellAt(s, r0, c0, row - r0, col - c0);
    MissingValue(part, full, 3 * (row - r0) + (col - c0));
  }

  /** From a valid board with a solution, the search succeeds. */
  lemma {:induction false} SolveComplete(b: Board, pick: Order, s: Board)
    requires IsBoard(b) && IsBoard(s) && Lists(pick) && ValidBoard(b) && Completes(b, s)
    ensures Solve(b, pick).status == Solved
    decreases Blanks(b), 1, 0
  {
    hide Solve, TryEach;
    var (row, col) := Scan(b, 0, 0);
    SolveStep(b, pick);
    if row < 9 {
      FirstBlank(b);
      assert Candidates(b, row, col).Some?;
      var cands := Candidates(b, row, col).value;
      var nums := pick(b, cands);
      SolutionFits(b, row, col, s);
      assert Enumerates(nums, cands);
      assert s[row][col] in nums;
      PickedFit(b, row, col, pick);
      PlaceBlankSame(b, row, col);
      TryEachComplete(b, row, col, nums, pick, s);
    }
  }

  lemma {:induction false} TryEachComplete(b: Board, row: int, col: int, nums: seq<char>,
                                           pick: Order, s: Board)
    requires IsBoard(b) && IsBoard(s) && 0 <= row < 9 && 0 <= col < 9 && Lists(pick)
    requires ValidBoard(Place(b, row, col, Blank))
    requires forall i :: 0 <= i < |nums| ==> nums[i] != Blank && Fits(Place(b, row, col, Blank), row, col, nums[i])
    requires Completes(Place(b, row, col, Blank), s) && s[row][col] in nums
    ensures TryEach(b, row, col, nums, pick).status == Solved
    decreases Blanks(Place(b, row, col, Blank)), 0, |nums|
  {
    hide Solve, Candidates, Scan;
    var cleared := Place(b, row, col, Blank);
    var tried := Place(b, row, col, nums[0]);
    PlaceTwice(b, row, col, Blank, nums[0]);
    PlaceFills(cleared, row, col, nums[0]);
    PlaceValid(cleared, row, col, nums[0]);
    SolveValid(tried, pick);
    if nums[0] == s[row][col] {
      assert Keeps(tried, s);
      SolveComplete(tried, pick, s);
    } else {
      var res := Solve(tried, pick);
      if res.status == Unsolvable {
        PlaceTwice(b, row, col, nums[0], Blank);
        assert s[row][col] in nums[1..];
        TryEachComplete(res.board, row, col, nums[1..], pick, s);
      }
    }
  }

  /** What `solve_sudoku` answers from a valid board: never a `KeyError`;
      `True` exactly when the board has a solution, leaving one on the
      board; `False` with the board as it was. */
  lemma SolveSpec(b: Board, pick: Order)
    requires IsBoard(b) && Lists(pick) && ValidBoard(b)
    ensures Solve(b, pick).status != KeyError
    ensures Solve(b, pick).status == Solved ==> Completes(b, Solve(b, pick).board)
    ensures Solve(b, pick).status == Solved <==> exists s :: IsBoard(s) && Completes(b, s)
  {
    SolveValid(b, pick);
    if s :| IsBoard(s) && Completes(b, s) {
      SolveComplete(b, pick, s);
    }
  }
}
